=== FILE: README.md ===
# DID finder: a verified model

The ServiceX DID finder turns a dataset identifier (DID) into a stream of
file records for a ServiceX transform request. This project models its
core in Dafny and proves properties of the model. The core has three parts:

- `LookupRequest` (module `Lookup`, `lookup_request.dfy`). It enumerates the
  files of the dataset and splits them into chunks of `chunk_size`. It
  queues the `{scope, name}` projection of each chunk. Workers then drain
  the queue one chunk at a time. For every replica that has a selected
  path, a worker reports a file record and counts it in the summary. Once
  the count reaches the number of enumerated files, it reports completion.
  While no sample has been submitted, every chunk that reaches the sample
  check makes one preflight call. The call carries the chunk's first
  record, or `None` when the chunk has none, and then it raises
  `TypeError`. The flag is set when such a call returns, so the call can be
  made several times or never, and at most one of those calls returns. A
  chunk that raises is logged and dropped.
- `RucioAdapter` (module `Rucio`, `rucio_adapter.dfy`). It splits a DID into
  scope and name, and places replica URLs into slots by priority. It also
  maps a parsed metalink document to one record per file entry.
- `ServiceXAdapter` (module `ServiceX`, `servicex_adapter.dfy`). Four
  reporting operations each send one HTTP request and send it again only
  after a connection error. They make at most `MAX_RETRIES = 3` requests,
  so at most two retries. After three connection errors they give up
  without raising.

`common.dfy` (module `Common`) holds the shared values:
- Python dictionaries are `map<string, Value>`. A lookup of a missing key
  in such a map raises `KeyError` in the model. The metalink entries of
  `list_files_for_did` are typed records instead, so their lookups cannot
  fail (see "Left out").
- Exceptions are `Result.Raised`.
- Python's negative list indexing is `PyIndex`.

Outside code is passed in as values:
- HTTP becomes `transport(k)`, the outcome of the adapter's `k`-th request,
  and `clock(k)`, the timestamp that request carries. Each adapter keeps a
  log of the requests it sent.
- The Rucio replica client becomes a function from a DID to a parsed
  metalink document, `DataIdentifierNotFound`, or another exception.
- `find_replicas` and `get_sel_path` are function-valued fields of the
  request. Either may raise; the request propagates that exception as the
  source does.
- `list_files_for_did`'s outcome is a `Listing` parameter: `None`, a list,
  a lazy iterable, or the exception the call (or the `list()` over its
  iterable) raised.

The request keeps a ghost log of every call it makes on the reporting
client, with whether the call returned, and of every dropped chunk. Its
invariant `Valid()` is `LogOk` on that log together with the queue
bookkeeping. The log also tells how many reporting calls raised
(`Unreturned`), which records were reported (`FileAdds`), and which status
updates and completion summaries were sent (`Notices`). A notice is a
status update's text and severity, or the `files` entry of a completion
summary. `LogOk` says:
- the file count equals the number of file-add calls that returned;
- the completion summary was sent once if the count has reached the total,
  and never otherwise;
- every completion summary carries the total;
- the sample flag is a one-shot latch;
- every reported record has the expected shape.

The request's methods that take a consistent request (`AddFile`,
`SubmitSample`, `VisitReplica`, `VisitAt`, `AddRecords`, `ProcessChunk`,
`Attempt`, `Step`, `TakeFront`, `DropChunk`, `ReplicaLookup`, `RunWorkers`,
`ReportFatal`) require `Valid()` and re-establish it. Inside `AddFile`, the
file-add call is made first; `Tally`, `CountFile`, `CompleteAfter` and the
lemma `FileAddRaised` then re-establish `Valid()` from `LogOk` on the log as
it was before that call. `LookupFiles` and `Run` establish it from a fresh
request. The methods that build the queue or send one call do not mention
it.

Each method that reports also states how it extends the log: which
records it reported, and that the only notices it adds are the completion
summary (with `files` equal to the number of enumerated files) followed by
its status message, and only while no completion summary was sent before
(`OnlyCompletion`). `AddFile` and `CompleteAfter` pin the whole completion
dictionary that is sent.

Each chunk's processing stops after some number of its replicas, which the
methods return as a ghost value (`reached`). Whatever happens, the records
reported for the chunk are the records of that prefix of its replicas
(`ChunkReported`). For a chunk that succeeds, this prefix's records begin
the chunk's records. `ReplicaLookup`, `RunWorkers` and `Run` lift this to
the whole queue (`Reported`): the records in the log are, chunk by chunk
in queue order, those the taken chunks reported, even when some chunks were
dropped.

The workers run one after the other. `Step` takes the front chunk and
`Attempt` processes it whole, `ReplicaLookup` is the `replica_lookup` loop
over `Step`, and `Run` is `lookup_files` followed by each started worker
(`RunWorkers`).

Facts about the code that the model follows:
- Completion is checked after every counted file, under the summary lock
  (`lookup_request.py` lines 122-128), not once per chunk.
- The sample flag is set only after `post_preflight_check` returns. When
  that call raises, for example on a chunk with no usable replica, the
  flag stays clear and a later chunk tries again.
- The completion dictionary's keys are `files`, `files-skipped`,
  `total-events`, `total-bytes` and `elapsed-time`.
- The count read for completion is `summary.files`. `DIDSummary` is not
  part of this model, so how `accumulate` and `add_file` change that count
  is an assumption here: the model assumes that `add_file` adds one and
  that `accumulate` leaves it alone. The other counters are whatever the
  request's `accumulate` function makes them (see "Left out").

## Model

| member | source | states |
|---|---|---|
| Common.PyIndex | src/servicex/did_finder/rucio_adapter.py:66 | Python list indexing succeeds exactly for `-n <= i < n`; a negative index counts from the end |
| Rucio.SplitProperties | src/servicex/did_finder/rucio_adapter.py:53 | `str.split(sep)` pieces join back to the string; there is one piece more than there are separators; no piece contains the separator |
| Rucio.SplitJoin | src/servicex/did_finder/rucio_adapter.py:53 | joining the pieces of `str.split(sep)` with `sep` gives the string back |
| Rucio.SplitParts | src/servicex/did_finder/rucio_adapter.py:53 | `str.split(sep)` gives one piece more than there are separators, and no piece contains the separator |
| Rucio.ParseDid | src/servicex/did_finder/rucio_adapter.py:43-56 | a DID without a colon has scope `""` and the whole DID as name; the only exception is `ValueError`, and only for a DID that contains a colon |
| Rucio.ParseDidCases | src/servicex/did_finder/rucio_adapter.py:43-56 | no colon gives scope `""` and the whole DID as name; exactly one colon gives colon-free parts with `scope + ":" + name == did`; two or more colons raise `ValueError` |
| Rucio.ParseDidScoped | src/servicex/did_finder/rucio_adapter.py:52-53 | round trip: colon-free scope and name are recovered from `scope:name` |
| Rucio.ParseInt | src/servicex/did_finder/rucio_adapter.py:66 | `int(s, 10)` of empty text fails; a negative value comes only from text that starts with `-` |
| Rucio.ParseIntShowInt | src/servicex/did_finder/rucio_adapter.py:66 | `int(s, 10)` reads back the decimal text of every integer |
| Rucio.Slot | src/servicex/did_finder/rucio_adapter.py:66 | the slot `priority - 1` written by `get_paths` is always inside the list; otherwise the write raises |
| Rucio.Place | src/servicex/did_finder/rucio_adapter.py:65-66 | writing the URLs left to right keeps the list length |
| Rucio.Nones | src/servicex/did_finder/rucio_adapter.py:64 | the preallocated list has `len(replicas)` slots, all `None` |
| Rucio.GetPaths | src/servicex/did_finder/rucio_adapter.py:58-67 | the array loop gives the same result as `Place` on `len(urls)` empty slots, including the exception it stops at |
| Rucio.PlaceRaises | src/servicex/did_finder/rucio_adapter.py:65-66 | `get_paths` raises exactly when some URL's priority is malformed or out of range |
| Rucio.PlaceFirstRaise | src/servicex/did_finder/rucio_adapter.py:65-66 | the loop stops at the first URL whose write fails, and `get_paths` raises that exception |
| Rucio.PlaceUntouched | src/servicex/did_finder/rucio_adapter.py:64-66 | a slot that no priority targets stays `None` |
| Rucio.PlaceLastWriter | src/servicex/did_finder/rucio_adapter.py:65-66 | with duplicate priorities, the slot holds the text of the last URL that targets it |
| Rucio.GetPathsPermutation | src/servicex/did_finder/rucio_adapter.py:58-67 | when the priorities are a permutation of 1..n, `get_paths` succeeds, slot `p-1` holds the text of the URL with priority `p`, and no slot is `None` |
| Rucio.GetPathsPriorityTooLarge | src/servicex/did_finder/rucio_adapter.py:66 | a priority above n makes `get_paths` raise; when every earlier URL was written, the exception is `IndexError` |
| Rucio.GetPathsPriorityZero | src/servicex/did_finder/rucio_adapter.py:66 | priority 0 writes the last slot (index -1): the text of a priority-0 URL that no later URL overwrites ends up in the last slot |
| Rucio.ToRecord | src/servicex/did_finder/rucio_adapter.py:86-93 | the record for one file entry has `adler32` = hash text, `file_size` = `int(size, 10)`, `file_events` = 0 and `file_path` = `get_paths(url)`; a malformed size raises `ValueError` before `get_paths` runs |
| Rucio.Records | src/servicex/did_finder/rucio_adapter.py:83-94 | a successful loop over the file entries gives one record per entry |
| Rucio.RecordsSpec | src/servicex/did_finder/rucio_adapter.py:83-94 | one record per file entry, in order, each that entry's record; the mapping fails exactly when some entry's record fails |
| Rucio.ListFilesForDid | src/servicex/did_finder/rucio_adapter.py:69-97 | the loop returns the records of all entries (or the first exception); `DataIdentifierNotFound` gives `None`; any other exception of the replica client propagates; a DID that does not parse raises |
| ServiceX.RetryFrom | src/servicex/did_finder/servicex_adapter.py:46-57 | from `a` connection errors the loop issues between `a+1` and 3 requests; all but the last met a connection error; it ends sent on success, gives up after 3 connection errors, or raises what the last request raised |
| ServiceX.Retry | src/servicex/did_finder/servicex_adapter.py:44-59 | at most 3 requests; only connection errors lead to another; first-try success is one request; it gives up silently exactly when 3 connection errors occur, and giving up takes exactly 3 requests; any other error propagates |
| ServiceX.FirstMissing | src/servicex/did_finder/servicex_adapter.py:66-70 | finds the key that the first failing `file_info[key]` lookup raises `KeyError` for; none exactly when all keys are present |
| ServiceX.FileAddBody | src/servicex/did_finder/servicex_adapter.py:66-70 | the file-add message holds exactly `timestamp`, `file_path`, `adler32`, `file_size`, `file_events`, the last four copied from `file_info` |
| ServiceX.ServiceXAdapter.constructor | src/servicex/did_finder/servicex_adapter.py:37-38 | a new adapter has the given endpoint and has sent nothing |
| ServiceX.ServiceXAdapter.Send | src/servicex/did_finder/servicex_adapter.py:44-59 | the shared `success`/`attempts` loop: the requests it appends and how it ends are exactly `Retry` of the outcomes; each request carries the endpoint plus path and the body built at its time |
| ServiceX.ServiceXAdapter.PostStatusUpdate | src/servicex/did_finder/servicex_adapter.py:43-59 | posts to `/status` a body with `timestamp`, `source = "DID Finder"`, `severity` (default `"info"`) and `info = status_msg`, under the retry loop |
| ServiceX.ServiceXAdapter.PutFileAdd | src/servicex/did_finder/servicex_adapter.py:61-78 | a missing key raises `KeyError` with nothing sent; otherwise puts the file-add message to `/files` under the retry loop |
| ServiceX.ServiceXAdapter.PostPreflightCheck | src/servicex/did_finder/servicex_adapter.py:80-93 | a `None` sample raises `TypeError` and a sample without `file_path` raises `KeyError`, with nothing sent; otherwise posts only `file_path` to `/preflight` |
| ServiceX.ServiceXAdapter.PutFilesetComplete | src/servicex/did_finder/servicex_adapter.py:95-107 | puts the summary unchanged to `/complete` under the retry loop |
| Lookup.Chunks | src/servicex/did_finder/lookup_request.py:71-74 | the generator yields nothing exactly when the file list is empty |
| Lookup.ChunksFlatten | src/servicex/did_finder/lookup_request.py:71-74 | the chunks concatenate back to the file list, in order |
| Lookup.ChunksCount | src/servicex/did_finder/lookup_request.py:73-74 | there are `ceil(L/C)` chunks, none when `L = 0` |
| Lookup.ChunksSizes | src/servicex/did_finder/lookup_request.py:73-74 | each chunk is non-empty and at most `C` long, and all but the last are exactly `C` long |
| Lookup.ChunkAt | src/servicex/did_finder/lookup_request.py:73-74 | chunk `i` is the slice `file_list[i*C : i*C + C]`, as the generator yields it |
| Lookup.Project | src/servicex/did_finder/lookup_request.py:175 | the projection holds exactly `scope` and `name` copied from the entry; a missing `scope` or `name` raises `KeyError` for it |
| Lookup.ProjectChunk | src/servicex/did_finder/lookup_request.py:175 | the comprehension over a chunk can raise only a `KeyError` |
| Lookup.ProjectChunkSpec | src/servicex/did_finder/lookup_request.py:175 | the comprehension succeeds exactly when every entry projects, and then holds each entry's projection at its position |
| Lookup.ProjectChunkAppend | src/servicex/did_finder/lookup_request.py:174-176 | projecting two lists one after the other is projecting their concatenation |
| Lookup.QueueHoldsEveryFile | src/servicex/did_finder/lookup_request.py:172-176 | the queued items, concatenated, are the projection of every file of the list, each once and in order |
| Lookup.FileData | src/servicex/did_finder/lookup_request.py:109-115 | the record has `req_id`, `adler32 = r['adler32']`, `file_size = r['bytes']`, `file_events = 0` and the selected path; a replica without `adler32` or `bytes` raises `KeyError` |
| Lookup.FileRecordHasFileAddKeys | src/servicex/did_finder/lookup_request.py:109-117 | every record the request builds has the keys `put_file_add` reads, so that call never raises `KeyError` |
| Lookup.CompletionInfoFields | src/servicex/did_finder/lookup_request.py:78-82 | the completion dictionary maps `files`, `files-skipped`, `total-events`, `total-bytes`, `elapsed-time` from the summary, and nothing else |
| Lookup.LogOk | src/servicex/did_finder/lookup_request.py:117-139 | definition of the log invariant: the file count is the number of file-add calls that returned; exactly one completion summary once the count reaches a non-zero total, none before; every completion summary carries the total; the sample latch; every record has the file-add shape |
| Lookup.LatchedAtMostOnce | src/servicex/did_finder/lookup_request.py:134-139 | under the sample latch at most one preflight call returned, and one exactly when the flag is set |
| Lookup.LogOkNeutral | src/servicex/did_finder/lookup_request.py:141-143 | a dropped chunk or a status update keeps the log invariant and counts as one failure or none |
| Lookup.LogOkFileAdd | src/servicex/did_finder/lookup_request.py:117-126 | a reported record that does not reach the total keeps the invariant; the count moves only when the call returned |
| Lookup.LogOkFileAddComplete | src/servicex/did_finder/lookup_request.py:122-128 | the record that brings the count to the total, followed by the completion summary (and its status update), keeps the invariant: exactly one completion now |
| Lookup.LogOkReached | src/servicex/did_finder/lookup_request.py:122-128 | the file add that reaches the total, followed by the completion summary, keeps the invariant whether or not that summary call returns; the unreturned count grows exactly when it raises |
| Lookup.LogOkPreflight | src/servicex/did_finder/lookup_request.py:134-139 | a preflight call made while the flag is clear keeps the invariant, and the flag follows its outcome |
| Lookup.LogOkAtMostOnce | src/servicex/did_finder/lookup_request.py:122-139 | the log holds at most one completion summary and at most one preflight call that returned |
| Lookup.OnlyCompletionTrans | src/servicex/did_finder/lookup_request.py:122-128 | two stretches of the log that each add at most the completion summary and its status message compose: the summary is still added at most once |
| Lookup.CompletionNoticed | src/servicex/did_finder/lookup_request.py:122-128 | the record that reaches the total, followed by the completion summary and (when that returned) the status message, adds exactly those notices, and only when no summary was sent before |
| Lookup.LookupRequest.constructor | src/servicex/did_finder/lookup_request.py:40-63 | a new request has an empty summary, no file list, no queue, the sample flag clear, no workers, and satisfies the invariant |
| Lookup.LookupRequest.Valid | src/servicex/did_finder/lookup_request.py:92-176 | definition of the request invariant: `LogOk` over the log, and every chunk ever queued is either taken or still in the queue, in order |
| Lookup.LookupRequest.Notify | src/servicex/did_finder/lookup_request.py:117-136 | one call on the reporting client is appended to the log with whether it returned; a file add missing a key, a preflight call with no sample or without `file_path` raise that exception and send nothing; otherwise the call ends as `Retry` of the transport outcomes, and each request it sends is the call's request at its own timestamp |
| Lookup.LookupRequest.RecordOf | src/servicex/did_finder/lookup_request.py:106-115 | one replica's outcome: an exception of `get_sel_path` propagates; a falsy path gives no record; otherwise the record built from the replica, or the `KeyError` for a missing `adler32` or `bytes` |
| Lookup.LookupRequest.ChunkRecordsOk | src/servicex/did_finder/lookup_request.py:105-124 | the replicas of a chunk give their records without an exception exactly when no replica's outcome is an exception |
| Lookup.LookupRequest.ChunkRecordsSelected | src/servicex/did_finder/lookup_request.py:105-124 | the chunk's records are one per replica with a truthy selected path, in replica order: the record of replica `i` is the one built from it, at the position counting the selected replicas before `i` |
| Lookup.LookupRequest.ChunkRecordsRaisedExtends | src/servicex/did_finder/lookup_request.py:106-115 | an exception in one replica ends the whole chunk with an exception |
| Lookup.LookupRequest.ChunkRecordsPrefix | src/servicex/did_finder/lookup_request.py:105-120 | the records of a prefix of the replicas begin the records of all of them |
| Lookup.LookupRequest.ChunkReportedPrefix | src/servicex/did_finder/lookup_request.py:105-120 | for a chunk that succeeds, what was reported before its processing stopped begins the chunk's records |
| Lookup.LookupRequest.Accrued | src/servicex/did_finder/lookup_request.py:123 | one `accumulate` keeps the file count and records the file |
| Lookup.LookupRequest.ReportLookupComplete | src/servicex/did_finder/lookup_request.py:76-90 | sends the completion dictionary of the summary and then the "Fileset load complete" status message; an exception from the first call skips the second |
| Lookup.LookupRequest.AddFile | src/servicex/did_finder/lookup_request.py:117-128 | reports the record, and the log gets exactly that call; if it raised, nothing else changes; if it returned, the record goes through `accumulate`, the count grows by one, and the log then gets nothing more, unless the count reaches the total, in which case it gets exactly the completion summary and, if that returned, the status message; the outcome of the file add is `Retry` of the transport; the invariant holds; the reported records grow by this one |
| Lookup.LookupRequest.PostFileAdd | src/servicex/did_finder/lookup_request.py:117 | the file-add call for a well-shaped record is appended to the log and ends as `Retry` of the transport outcomes, never with a `KeyError` |
| Lookup.LookupRequest.FileAddRaised | src/servicex/did_finder/lookup_request.py:117 | a file-add call that raised leaves the count and the invariant as they were, adds one unreturned call and the record to the reported records |
| Lookup.LookupRequest.Tally | src/servicex/did_finder/lookup_request.py:122-128 | after a file add that returned, the record goes through `accumulate` and the count grows by one; completion is reported exactly when the count reaches the total, with exactly the completion summary and its status message appended; the invariant holds |
| Lookup.LookupRequest.CountFile | src/servicex/did_finder/lookup_request.py:122-126 | a returned record that does not reach the total goes through `accumulate` and is counted, and nothing is reported; the invariant holds |
| Lookup.LookupRequest.CompleteAfter | src/servicex/did_finder/lookup_request.py:126-128 | after the file add that reaches the total, appends exactly the completion summary of the summary and, if that returned, the status message; re-establishes the invariant; these are the only notices added; the unreturned count grows exactly when that report raises |
| Lookup.LookupRequest.SubmitSample | src/servicex/did_finder/lookup_request.py:134-139 | one preflight call while the flag is clear, and nothing else in the log; the flag is set exactly when it returns; a missing sample raises `TypeError`; a sample with `file_path` ends as `Retry` of the transport outcomes |
| Lookup.LookupRequest.VisitReplica | src/servicex/did_finder/lookup_request.py:106-124 | a replica whose outcome is an exception raises it with nothing reported; a replica without a truthy path changes nothing; otherwise its record is reported, and counted when the call returns; the unreturned count grows exactly when a reporting call raised |
| Lookup.LookupRequest.VisitAt | src/servicex/did_finder/lookup_request.py:106-124 | one pass of the replica loop keeps the invariant; without an exception it extends the reported records by this replica's record; an exception comes from the chunk's records or from a reporting call that raised, and then the records reported are those of the replicas visited so far |
| Lookup.LookupRequest.AddRecords | src/servicex/did_finder/lookup_request.py:105-124 | the replica loop ends normally exactly when the chunk's records raise nothing and every reporting call returned; then it has reported exactly those records, in order, counted them, and kept the first as the sample; when it raises, the records reported are those of a prefix of the replicas |
| Lookup.LookupRequest.ProcessChunk | src/servicex/did_finder/lookup_request.py:95-139 | one chunk ends normally exactly when `find_replicas` and every replica succeed and every reporting call returns; a `find_replicas` failure changes nothing and raises its exception; otherwise the records reported are those of a prefix of the replicas, whether or not it raised; a normal end reports and counts all the chunk's records and, if no sample was submitted yet, its last call is the returned preflight of the first of them; a set flag stays set; the only notices are the completion summary and its status message |
| Lookup.LookupRequest.Step | src/servicex/did_finder/lookup_request.py:93-143 | takes exactly the front chunk and attempts it as `Attempt` states |
| Lookup.LookupRequest.Attempt | src/servicex/did_finder/lookup_request.py:94-143 | the `try`/`except` around one chunk: unless the chunk succeeds and every reporting call returned, exactly one dropped chunk is logged, last, naming it; the records reported are those of the prefix of the replicas processed, in every case; with no drop all the chunk's records are reported and counted, and if the flag was clear it is set and the last call is the returned preflight of the chunk's first record; a set flag stays set; the only notices are the completion summary and its status message |
| Lookup.LookupRequest.TakeFront | src/servicex/did_finder/lookup_request.py:95 | `get_nowait` removes exactly the front chunk and records it as taken |
| Lookup.LookupRequest.DropChunk | src/servicex/did_finder/lookup_request.py:141-143 | the `except` clause adds exactly one dropped chunk to the log with its exception, and no reporting call |
| Lookup.LookupRequest.ReplicaLookup | src/servicex/did_finder/lookup_request.py:92-143 | drains the queue, taking every chunk once in order; the reported records are, chunk by chunk in queue order, those each chunk reported before it ended or raised; no chunk is dropped exactly when every chunk succeeds and every reporting call returns; then the count grows by the total yield of the chunks, the reported records are all the chunks' records, and if the flag was clear it is set by a returned preflight of the first of them; an empty queue changes nothing; a set flag stays set; the only notices are the completion summary and its status message |
| Lookup.LookupRequest.DrainedNext | src/servicex/did_finder/lookup_request.py:92-143 | one more chunk processed as `Step` promises extends what the loop has drained by that chunk |
| Lookup.LookupRequest.AttemptedDropped | src/servicex/did_finder/lookup_request.py:141-143 | a chunk whose processing raised and that was then logged as dropped was attempted as `Attempt` states |
| Lookup.LookupRequest.DrainedStep | src/servicex/did_finder/lookup_request.py:92-143 | one more chunk attempted extends what the loop has drained, reported and sampled by that chunk |
| Lookup.LookupRequest.DrainOne | src/servicex/did_finder/lookup_request.py:93-143 | one iteration of the `replica_lookup` loop takes the next chunk and extends what the loop has drained, reported and sampled by it |
| Lookup.LookupRequest.ReportedNext | src/servicex/did_finder/lookup_request.py:92-143 | the records reported by the first `k+1` chunks are those of the first `k` followed by those of chunk `k` |
| Lookup.LookupRequest.ReportedAsNext | src/servicex/did_finder/lookup_request.py:92-143 | a chunk that reported its prefix's records extends the records reported by the loop by them |
| Lookup.LookupRequest.SampledNext | src/servicex/did_finder/lookup_request.py:134-139 | the first chunk to go through with the flag clear submits its first record, which is the first record of all the chunks so far; later chunks keep the flag set |
| Lookup.LookupRequest.ChunksNext | src/servicex/did_finder/lookup_request.py:92-143 | the chunks processed so far succeed, yield and report exactly what they did before plus what the next chunk does |
| Lookup.LookupRequest.AllFilesYield | src/servicex/did_finder/lookup_request.py:105-128 | the records of the chunks number their yield |
| Lookup.LookupRequest.PutNowait | src/servicex/did_finder/lookup_request.py:176 | a full bounded queue raises `QueueFull`; otherwise the item goes to the back |
| Lookup.LookupRequest.ReportFatal | src/servicex/did_finder/lookup_request.py:146-166 | one fatal status update appended to the log, keeping the invariant |
| Lookup.LookupRequest.FillQueue | src/servicex/did_finder/lookup_request.py:172-176 | queues the projection of each chunk in order; never raises `QueueFull`; stops only at a projection's `KeyError`; on success the queue holds every file once, in order |
| Lookup.LookupRequest.Accumulate | src/servicex/did_finder/lookup_request.py:168-169 | the loop leaves the summary that `accumulate` gives over every enumerated file in order; the file count is unchanged and the files are recorded in order |
| Lookup.LookupRequest.StartQueue | src/servicex/did_finder/lookup_request.py:172-183 | chunk size 0 raises `ZeroDivisionError`; a negative size gives an unbounded empty queue; a positive size gives capacity `ceil(L/C)` and the chunk projections; the workers start only when queueing succeeded |
| Lookup.LookupRequest.StartBounded | src/servicex/did_finder/lookup_request.py:172-183 | a positive chunk size gives capacity `ceil(L/C)` and queues the chunk projections in order; the workers start only when every chunk was queued |
| Lookup.LookupRequest.ReportNoFiles | src/servicex/did_finder/lookup_request.py:146-166 | a falsy listing posts exactly one fatal "DID Not found", an empty one exactly one fatal "found zero files"; neither builds a queue or starts a worker |
| Lookup.LookupRequest.LoadFileList | src/servicex/did_finder/lookup_request.py:168-183 | a non-empty file list is passed to `accumulate` in order, then the queue is built as `StartQueue` states; no reporting call is made |
| Lookup.LookupRequest.LookupFiles | src/servicex/did_finder/lookup_request.py:145-183 | an exception of the listing propagates with nothing changed; a falsy result posts exactly one fatal "DID Not found"; an empty iterable posts exactly one fatal "found zero files"; neither builds a queue or starts a worker; otherwise the file list is the result and the queue is built as `StartQueue` states |
| Lookup.LookupRequest.Run | src/servicex/did_finder/lookup_request.py:178-183 | after the workers: at most one completion and at most one returned preflight; every queued chunk was taken; the reported records are, chunk by chunk, those of the taken chunks; no chunk was dropped exactly when every chunk succeeds and every reporting call returned, and then every yielded file is counted, the reported records are the records of every chunk in queue order, and a non-empty queue's first record was submitted by a returned preflight; the only notices are the completion summary followed by its status message; with one record per file the completion is sent exactly once |
| Lookup.LookupRequest.RunWorkers | src/servicex/did_finder/lookup_request.py:178-183 | the workers run `replica_lookup` one after another on the filled queue; the reported records are, chunk by chunk, those of the taken chunks; with at least one worker every chunk is taken, and with no drop every chunk's records are reported and counted, and a non-empty queue's first record was submitted by a returned preflight; the only notices are the completion summary and its status message |
| Lookup.LookupRequest.FirstWorker | src/servicex/did_finder/lookup_request.py:178-183 | the first worker drains the filled queue: every chunk is taken, the records are reported chunk by chunk, and with no drop all are counted and the first is submitted as the sample |
| Lookup.LookupRequest.IdleWorker | src/servicex/did_finder/lookup_request.py:92-93 | a worker that finds the queue empty changes nothing |

## Left out

- Threads and locks. The workers run one after another, each processing
  whole chunks. Interleavings inside a chunk are not modelled, and neither
  is the thread safety of the queue.
- Timestamps and elapsed time. `datetime.now()` becomes `clock(k)` in the
  reporting client. The elapsed seconds and their text at completion are
  constants of the request.
- Logging and `json.dumps`. They are not modelled. An exception raised while
  logging is not modelled either.
- HTTP. `requests.post` and `requests.put` become the `transport` outcomes.
  The model does not distinguish the form-encoded body of the status update
  from the JSON bodies of the other calls.
- `xmltodict.parse` and `replica_client.list_replicas`. The parsed metalink
  is a plain datatype. xmltodict returns a single dict instead of a list for
  one `<file>` or one `<url>`. This is not modelled.
- `MetalinkFile` and `Url` always hold their fields, and the parsed
  document always holds its file list. The `KeyError` that a missing
  `metalink`, `file`, `hash`, `size`, `url`, `@priority` or `#text` would
  raise is not modelled.
- `DIDSummary` is not part of this model. `summary.files` is assumed to
  start at 0, to grow by one in `add_file` and to be left alone by
  `accumulate`. `files_skipped`, `total_events` and `total_bytes` are what
  an arbitrary function `accumulate` of the request makes them; the
  constructor sets them to 0. Neither `accumulate` nor `add_file` raises
  in the model.
- `Notices` keeps only the `files` entry of a completion summary, so
  `OnlyCompletion` and `Run` do not pin its other entries. `AddFile` and
  `CompleteAfter` state the whole dictionary that is sent.
- `find_replicas` and `get_sel_path` are not part of this model. They are
  arbitrary functions fixed for the request, each returning a value or an
  exception.
- `list_files_for_did` feeds `lookup_files` only through the abstract
  `Listing`. The records `Rucio.ListFilesForDid` builds have no `scope` or
  `name` key, so feeding them in would make the projection raise
  `KeyError`.
- Rucio.ParseInt: models `int(s, 10)` for an optional sign followed by ASCII
  digits only. Surrounding whitespace, `_` separators and non-ASCII digits,
  which Python also accepts, are rejected.
- ServiceX.ServiceXAdapter.PutFileAdd: checks the four keys once, before
  the retry loop. The source reads them inside the loop, but a missing key
  raises on the first attempt before any request, so the effect is the
  same.
- Lookup.LookupRequest.Run: proves completion only for the sequential
  schedule of whole chunks. Nothing is claimed for concurrent workers.
- Lookup.LookupRequest.ProcessChunk: the model gives no guarantee of
  eventual completion. A dropped chunk can leave the count below the total
  forever. The source does the same.

=== FILE: common.dfy ===
/** Values and failure modes shared by the DID finder model.
    Python dictionaries are maps from string keys to `Value`s, so a lookup
    of a missing key is observable as a `KeyError`. */
module Common {

  datatype Option<+T> = None | Some(value: T)

  /** The Python exceptions the modelled code can raise. `QueueFull` is
      what `put_nowait` raises on a full bounded queue; `OtherError` stands
      for any other exception a collaborator raises (an HTTP failure that
      is not a connection error, a catalogue failure). */
  datatype Exc =
    | ValueError
    | IndexError
    | TypeError
    | ZeroDivisionError
    | KeyError(key: string)
    | OtherError
    | QueueFull

  /** Either a value, or the exception that escaped the computation. */
  datatype Result<+T> = Ok(value: T) | Raised(exc: Exc)

  /** The dynamic values found in the dictionaries the source passes around. */
  datatype Value = Null | Int(i: int) | Str(s: string) | List(items: seq<Value>)

  type Dict = map<string, Value>

  /** Python's list indexing `xs[i]` on a list of length `n`: a negative
      index counts from the end, anything outside `-n .. n-1` raises. */
  function PyIndex(n: nat, i: int): (r: Option<nat>)
    ensures r.Some? <==> -(n as int) <= i < n
    ensures r.Some? ==> r.value < n && (if i >= 0 then r.value == i else r.value == n + i)
  {
    if 0 <= i < n then Some(i)
    else if -(n as int) <= i < 0 then Some(n + i)
    else None
  }
}

=== FILE: lookup_request.dfy ===
/** The request orchestrator: enumerate the files of a dataset, split them
    into chunks, queue the chunks, and drain the queue resolving replicas,
    reporting each file, one preflight sample and one completion summary. */
module Lookup {
  import opened Common
  import opened ServiceX

  // ---------------------------------------------------------------------
  // chunks()
  // ---------------------------------------------------------------------

  /** `math.ceil(a / b)` for a positive `b`. */
  function CeilDiv(a: nat, b: nat): nat
    requires b > 0
  {
    (a + b - 1) / b
  }

  function Min(a: int, b: int): int
  {
    if a <= b then a else b
  }

  /** `LookupRequest.chunks`: consecutive slices of `size` items, the last
      one possibly shorter. */
  function Chunks<T>(xs: seq<T>, size: nat): (r: seq<seq<T>>)
    requires size > 0
    ensures r == [] <==> xs == []
    decreases |xs|
  {
    if |xs| == 0 then []
    else if |xs| <= size then [xs]
    else [xs[..size]] + Chunks(xs[size..], size)
  }

  function Flatten<T>(css: seq<seq<T>>): seq<T>
    decreases |css|
  {
    if css == [] then [] else css[0] + Flatten(css[1..])
  }

  /** Concatenating the chunks gives back the list, in order. */
  lemma {:induction false} ChunksFlatten<T>(xs: seq<T>, size: nat)
    requires size > 0
    ensures Flatten(Chunks(xs, size)) == xs
    decreases |xs|
  {
    if |xs| > size {
      ChunksFlatten(xs[size..], size);
      var cs := Chunks(xs, size);
      assert cs[1..] == Chunks(xs[size..], size);
      assert xs == xs[..size] + xs[size..];
    }
  }

  /** There are `ceil(L / size)` chunks, the length of the generator's
      `range(0, L, size)`. */
  lemma {:induction false} ChunksCount<T>(xs: seq<T>, size: nat)
    requires size > 0
    ensures |Chunks(xs, size)| == CeilDiv(|xs|, size)
    decreases |xs|
  {
    if |xs| == 0 {
      DivUnique(size - 1, size, 0, size - 1);
    } else if |xs| <= size {
      DivUnique(|xs| + size - 1, size, 1, |xs| - 1);
    } else {
      var tail := xs[size..];
      ChunksCount(tail, size);
      DivPlusOne(|tail| + size - 1, size);
    }
  }

  /** Each chunk is non-empty and at most `size` long, and all but the last
      are exactly `size` long. */
  lemma {:induction false} ChunksSizes<T>(xs: seq<T>, size: nat)
    requires size > 0
    ensures forall i :: 0 <= i < |Chunks(xs, size)| ==>
              0 < |Chunks(xs, size)[i]| <= size &&
              (i < |Chunks(xs, size)| - 1 ==> |Chunks(xs, size)[i]| == size)
    decreases |xs|
  {
    if |xs| > size {
      var tail := xs[size..];
      ChunksSizes(tail, size);
      var cs := Chunks(xs, size);
      assert forall i :: 0 < i < |cs| ==> cs[i] == Chunks(tail, size)[i - 1];
    }
  }

  lemma {:induction false} MulAtLeast(k: nat, d: nat)
    ensures k >= 1 ==> k * d >= d
    decreases k
  {
    if k > 1 {
      MulAtLeast(k - 1, d);
      assert k * d == (k - 1) * d + d;
    }
  }

  lemma MulBounds(k: int, d: nat)
    ensures k >= 1 ==> k * d >= d
    ensures k <= -1 ==> k * d <= -(d as int)
  {
    if k >= 1 {
      MulAtLeast(k, d);
    } else if k <= -1 {
      MulAtLeast(-k, d);
      assert (-k) * d == -(k * d);
    }
  }

  lemma DivUnique(n: int, d: int, q: int, r: int)
    requires d > 0 && 0 <= r < d && n == q * d + r
    ensures n / d == q
  {
    var q', r' := n / d, n % d;
    assert n == q' * d + r';
    assert (q' - q) * d == q' * d - q * d;
    MulBounds(q' - q, d);
  }

  lemma DivPlusOne(a: nat, b: nat)
    requires b > 0
    ensures (a + b) / b == a / b + 1
  {
    var q, r := a / b, a % b;
    assert a == q * b + r;
    assert (q + 1) * b == q * b + b;
    DivUnique(a + b, b, q + 1, r);
  }

  /** Chunk `i` is the slice `xs[i*size : i*size + size]`, exactly what
      the generator yields for the `i`-th value of its range. */
  lemma {:induction false} ChunkAt<T>(xs: seq<T>, size: nat, i: nat)
    requires size > 0 && i < |Chunks(xs, size)|
    ensures i * size < |xs|
    ensures Chunks(xs, size)[i] == xs[i * size .. Min(i * size + size, |xs|)]
    decreases i
  {
    if i > 0 {
      ChunksUnfold(xs, size);
      var tail := xs[size..];
      ChunkAt(tail, size, i - 1);
      var j := (i - 1) * size;
      MulSucc(i, size);
      SliceShift(xs, size, j, Min(j + size, |tail|));
    }
  }

  /** More than one chunk means the first is a full one. */
  lemma ChunksUnfold<T>(xs: seq<T>, size: nat)
    requires size > 0 && |Chunks(xs, size)| > 1
    ensures |xs| > size && Chunks(xs, size) == [xs[..size]] + Chunks(xs[size..], size)
  {
  }

  lemma MulSucc(i: nat, size: nat)
    requires i > 0
    ensures i * size == (i - 1) * size + size
  {
  }

  lemma SliceShift<T>(xs: seq<T>, size: nat, a: nat, b: nat)
    requires size <= |xs| && a <= b <= |xs| - size
    ensures xs[size..][a..b] == xs[size + a .. size + b]
  {
  }

  /** Projecting two lists one after the other is projecting their
      concatenation. */
  lemma {:induction false} ProjectChunkAppend(a: seq<Dict>, b: seq<Dict>)
    requires ProjectChunk(a).Ok? && ProjectChunk(b).Ok?
    ensures ProjectChunk(a + b) == Ok(ProjectChunk(a).value + ProjectChunk(b).value)
    decreases |a|
  {
    if a == [] {
      assert a + b == b && ProjectChunk(a) == Ok([]);
      assert [] + ProjectChunk(b).value == ProjectChunk(b).value;
    } else {
      var c := a + b;
      assert c[0] == a[0] && c[1..] == a[1..] + b;
      var head, pa, pb := Project(a[0]).value, ProjectChunk(a[1..]).value, ProjectChunk(b).value;
      assert ProjectChunk(a).value == [head] + pa;
      ProjectChunkAppend(a[1..], b);
      assert ProjectChunk(c) == Ok([head] + (pa + pb));
      assert [head] + (pa + pb) == ([head] + pa) + pb;
    }
  }

  /** The queue built from the chunks holds the projection of every file
      of the list, each once and in order. */
  lemma {:induction false} QueueHoldsEveryFile(xs: seq<Dict>, size: nat, q: seq<seq<Dict>>)
    requires size > 0
    requires |q| == |Chunks(xs, size)|
    requires forall j :: 0 <= j < |q| ==> ProjectChunk(Chunks(xs, size)[j]) == Ok(q[j])
    ensures ProjectChunk(xs) == Ok(Flatten(q))
    decreases |xs|
  {
    if |xs| == 0 {
    } else if |xs| <= size {
      assert Chunks(xs, size) == [xs];
      assert ProjectChunk(xs) == Ok(q[0]);
      assert q[1..] == [];
      assert Flatten(q[1..]) == [];
      assert Flatten(q) == q[0] + Flatten(q[1..]) == q[0];
    } else {
      var tail := xs[size..];
      var cs := Chunks(xs, size);
      assert cs[1..] == Chunks(tail, size);
      QueueHoldsEveryFile(tail, size, q[1..]);
      ProjectChunkAppend(xs[..size], tail);
      assert xs == xs[..size] + tail;
    }
  }

  // ---------------------------------------------------------------------
  // Values exchanged with the collaborators
  // ---------------------------------------------------------------------

  /** What `list_files_for_did` hands back: `None`, a list, or a lazy
      iterable; or the exception raised by the call or while `list()`
      drains the iterable. An iterable is truthy even when it yields
      nothing. */
  datatype Listing = NoneValue | ListValue(items: seq<Dict>) | IterValue(items: seq<Dict>) | Failed(exc: Exc)

  predicate IsTruthy(l: Listing)
  {
    match l
    case NoneValue => false
    case ListValue(xs) => |xs| > 0
    case IterValue(_) => true
    case Failed(_) => false
  }

  /** A selected path is used only when it is a non-empty string. */
  predicate IsTruthyPath(p: Option<string>)
  {
    p.Some? && p.value != ""
  }

  /** The `{'scope': ..., 'name': ...}` projection of one file entry. */
  function Project(file: Dict): (r: Result<Dict>)
    ensures r.Ok? <==> "scope" in file && "name" in file
    ensures r.Ok? ==> r.value.Keys == {"scope", "name"} &&
                      r.value["scope"] == file["scope"] && r.value["name"] == file["name"]
    ensures "scope" !in file ==> r == Raised(KeyError("scope"))
    ensures "scope" in file && "name" !in file ==> r == Raised(KeyError("name"))
  {
    if "scope" !in file then Raised(KeyError("scope"))
    else if "name" !in file then Raised(KeyError("name"))
    else Ok(map["scope" := file["scope"], "name" := file["name"]])
  }

  /** The list comprehension over one chunk: the projection of every entry,
      in order, or the first `KeyError`. */
  function ProjectChunk(chunk: seq<Dict>): (r: Result<seq<Dict>>)
    ensures r.Raised? ==> r.exc.KeyError?
    decreases |chunk|
  {
    if chunk == [] then Ok([])
    else
      match Project(chunk[0])
      case Raised(e) => Raised(e)
      case Ok(d) =>
        match ProjectChunk(chunk[1..])
        case Raised(e) => Raised(e)
        case Ok(ds) => Ok([d] + ds)
  }

  /** The comprehension succeeds exactly when every entry has a scope and
      a name, and then holds each entry's projection at its position. */
  lemma {:induction false} ProjectChunkSpec(chunk: seq<Dict>)
    ensures ProjectChunk(chunk).Ok? <==> forall i :: 0 <= i < |chunk| ==> Project(chunk[i]).Ok?
    ensures ProjectChunk(chunk).Ok? ==>
              |ProjectChunk(chunk).value| == |chunk| &&
              forall i :: 0 <= i < |chunk| ==> ProjectChunk(chunk).value[i] == Project(chunk[i]).value
    decreases |chunk|
  {
    if chunk != [] {
      ProjectChunkSpec(chunk[1..]);
      assert forall i :: 0 < i < |chunk| ==> chunk[i] == chunk[1..][i - 1];
    }
  }

  /** The record `replica_lookup` builds for a replica with a selected
      path; reading `adler32` or `bytes` from a replica without them raises. */
  function FileData(requestId: string, replica: Dict, selPath: string): (r: Result<Dict>)
    ensures r.Ok? <==> "adler32" in replica && "bytes" in replica
    ensures "adler32" !in replica ==> r == Raised(KeyError("adler32"))
    ensures "adler32" in replica && "bytes" !in replica ==> r == Raised(KeyError("bytes"))
    ensures r.Ok? ==> IsFileRecord(requestId, r.value) && r.value["file_path"] == Str(selPath) &&
                      r.value["adler32"] == replica["adler32"] && r.value["file_size"] == replica["bytes"]
  {
    if "adler32" !in replica then Raised(KeyError("adler32"))
    else if "bytes" !in replica then Raised(KeyError("bytes"))
    else Ok(map["req_id" := Str(requestId), "adler32" := replica["adler32"],
                "file_size" := replica["bytes"], "file_events" := Int(0),
                "file_path" := Str(selPath)])
  }

  /** The shape of every record the request reports. */
  predicate IsFileRecord(requestId: string, d: Dict)
  {
    d.Keys == {"req_id", "adler32", "file_size", "file_events", "file_path"} &&
    d["req_id"] == Str(requestId) && d["file_events"] == Int(0)
  }

  /** Every reported record carries the keys `put_file_add` reads, so that
      call never raises `KeyError` for it. */
  lemma FileRecordHasFileAddKeys(requestId: string, d: Dict)
    requires IsFileRecord(requestId, d)
    ensures FirstMissing(FileAddKeys, d).None?
  {
    assert forall i :: 0 <= i < |FileAddKeys| ==> FileAddKeys[i] in d;
  }

  /** The running totals of the request, and the records accumulated
      into it. `DIDSummary` is not part of this model: `files` is assumed
      to start at 0, to be advanced by one by `add_file` and to be left
      alone by `accumulate`; the other counters are whatever
      `accumulate` makes them. */
  datatype Summary = Summary(files: nat, filesSkipped: nat, totalEvents: int, totalBytes: int, accumulated: seq<Dict>)

  /** The dictionary `report_lookup_complete` sends from the summary. */
  function CompletionInfo(s: Summary, elapsedSeconds: int): Dict
  {
    map["files" := Int(s.files), "files-skipped" := Int(s.filesSkipped),
        "total-events" := Int(s.totalEvents), "total-bytes" := Int(s.totalBytes),
        "elapsed-time" := Int(elapsedSeconds)]
  }

  /** The completion dictionary has exactly the five summary keys, each
      carrying its counter. */
  lemma CompletionInfoFields(s: Summary, elapsedSeconds: int)
    ensures var m := CompletionInfo(s, elapsedSeconds);
            m.Keys == {"files", "files-skipped", "total-events", "total-bytes", "elapsed-time"} &&
            m["files"] == Int(s.files) && m["files-skipped"] == Int(s.filesSkipped) &&
            m["total-events"] == Int(s.totalEvents) && m["total-bytes"] == Int(s.totalBytes) &&
            m["elapsed-time"] == Int(elapsedSeconds)
  {
  }

  // ---------------------------------------------------------------------
  // The event log
  // ---------------------------------------------------------------------

  /** A call the request makes on the reporting client. */
  datatype Call =
    | StatusUpdate(info: string, severity: string)
    | FileAdd(data: Dict)
    | Preflight(sample: Option<Dict>)
    | FilesetComplete(summary: Dict)

  /** The exception the reporting client raises for `c` before making any
      request: a file-add record without one of the message keys, or a
      sample that is `None` or has no `file_path`. */
  function Precheck(c: Call): Option<Exc>
  {
    match c
    case FileAdd(data) =>
      if FirstMissing(FileAddKeys, data).Some? then Some(KeyError(FirstMissing(FileAddKeys, data).value)) else None
    case Preflight(sample) =>
      if sample.None? then Some(TypeError)
      else if "file_path" !in sample.value then Some(KeyError("file_path"))
      else None
    case _ => None
  }

  /** The request the reporting client makes for `c` at `endpoint`, stamped
      with `timestamp`. */
  function CallRequest(endpoint: string, c: Call, timestamp: string): Request
    requires Precheck(c).None?
  {
    match c
    case StatusUpdate(info, severity) =>
      Request(Post, endpoint + "/status",
              map["timestamp" := Str(timestamp), "source" := Str(Source),
                  "severity" := Str(severity), "info" := Str(info)])
    case FileAdd(data) => Request(Put, endpoint + "/files", FileAddBody(timestamp, data))
    case Preflight(sample) => Request(Post, endpoint + "/preflight", map["file_path" := sample.value["file_path"]])
    case FilesetComplete(info) => Request(Put, endpoint + "/complete", info)
  }

  /** A call and whether it returned normally, or a chunk whose processing
      raised and was logged and dropped. */
  datatype Event = Called(call: Call, returned: bool) | ChunkFailed(chunk: seq<Dict>, exc: Exc)

  /** What a status update or a completion summary tells the service:
      the file count of a summary (the rest of a summary comes from
      counters this model leaves open), or a status message. */
  datatype Notice = CompletionNotice(files: Option<Value>) | StatusNotice(info: string, severity: string)

  function NoticeOf(c: Call): Notice
    requires c.StatusUpdate? || c.FilesetComplete?
  {
    if c.StatusUpdate? then StatusNotice(c.info, c.severity)
    else CompletionNotice(if "files" in c.summary then Some(c.summary["files"]) else None)
  }

  /** The number of file-add calls that returned normally. */
  ghost function Added(es: seq<Event>): nat
    decreases |es|
  {
    if es == [] then 0
    else
      var e := es[|es| - 1];
      Added(es[..|es| - 1]) + (if e.Called? && e.call.FileAdd? && e.returned then 1 else 0)
  }

  /** The number of fileset-complete calls made, whatever their outcome. */
  ghost function Completions(es: seq<Event>): nat
    decreases |es|
  {
    if es == [] then 0
    else
      var e := es[|es| - 1];
      Completions(es[..|es| - 1]) + (if e.Called? && e.call.FilesetComplete? then 1 else 0)
  }

  /** The number of chunks dropped because their processing raised. */
  ghost function Failures(es: seq<Event>): nat
    decreases |es|
  {
    if es == [] then 0
    else Failures(es[..|es| - 1]) + (if es[|es| - 1].ChunkFailed? then 1 else 0)
  }

  /** The number of calls on the reporting client that raised. */
  ghost function Unreturned(es: seq<Event>): nat
    decreases |es|
  {
    if es == [] then 0
    else
      var e := es[|es| - 1];
      Unreturned(es[..|es| - 1]) + (if e.Called? && !e.returned then 1 else 0)
  }

  /** Whether each preflight call returned normally, in order. */
  ghost function PreflightResults(es: seq<Event>): seq<bool>
    decreases |es|
  {
    if es == [] then []
    else
      var e := es[|es| - 1];
      PreflightResults(es[..|es| - 1]) + (if e.Called? && e.call.Preflight? then [e.returned] else [])
  }

  /** The records of all file-add calls, in order. */
  ghost function FileAdds(es: seq<Event>): seq<Dict>
    decreases |es|
  {
    if es == [] then []
    else
      var e := es[|es| - 1];
      FileAdds(es[..|es| - 1]) + (if e.Called? && e.call.FileAdd? then [e.call.data] else [])
  }

  /** The status updates and completion summaries sent, whatever their
      outcome, in order. */
  ghost function Notices(es: seq<Event>): seq<Notice>
    decreases |es|
  {
    if es == [] then []
    else
      var e := es[|es| - 1];
      Notices(es[..|es| - 1]) +
      (if e.Called? && (e.call.StatusUpdate? || e.call.FilesetComplete?) then [NoticeOf(e.call)] else [])
  }

  /** Every completion summary in the log reports `total` files. */
  ghost predicate CompletionsCarry(es: seq<Event>, total: nat)
    decreases |es|
  {
    es == [] ||
    (CompletionsCarry(es[..|es| - 1], total) &&
     var e := es[|es| - 1];
     e.Called? && e.call.FilesetComplete? ==> "files" in e.call.summary && e.call.summary["files"] == Int(total))
  }

  /** Every record in the log has the shape `IsFileRecord` describes. */
  ghost predicate RecordsShaped(es: seq<Event>, requestId: string)
    decreases |es|
  {
    es == [] ||
    (RecordsShaped(es[..|es| - 1], requestId) &&
     var e := es[|es| - 1];
     e.Called? && e.call.FileAdd? ==> IsFileRecord(requestId, e.call.data))
  }

  /** How each view of the log changes when one event is appended. */
  lemma LogAppend(es: seq<Event>, e: Event, total: nat, requestId: string)
    ensures Added(es + [e]) == Added(es) + (if e.Called? && e.call.FileAdd? && e.returned then 1 else 0)
    ensures Completions(es + [e]) == Completions(es) + (if e.Called? && e.call.FilesetComplete? then 1 else 0)
    ensures Failures(es + [e]) == Failures(es) + (if e.ChunkFailed? then 1 else 0)
    ensures Unreturned(es + [e]) == Unreturned(es) + (if e.Called? && !e.returned then 1 else 0)
    ensures PreflightResults(es + [e]) ==
              PreflightResults(es) + (if e.Called? && e.call.Preflight? then [e.returned] else [])
    ensures FileAdds(es + [e]) == FileAdds(es) + (if e.Called? && e.call.FileAdd? then [e.call.data] else [])
    ensures Notices(es + [e]) ==
              Notices(es) + (if e.Called? && (e.call.StatusUpdate? || e.call.FilesetComplete?) then [NoticeOf(e.call)] else [])
    ensures CompletionsCarry(es + [e], total) <==>
              CompletionsCarry(es, total) &&
              (e.Called? && e.call.FilesetComplete? ==> "files" in e.call.summary && e.call.summary["files"] == Int(total))
    ensures RecordsShaped(es + [e], requestId) <==>
              RecordsShaped(es, requestId) && (e.Called? && e.call.FileAdd? ==> IsFileRecord(requestId, e.call.data))
  {
    assert (es + [e])[..|es|] == es;
  }

  /** The one-shot latch: no preflight call returned before the last one,
      and the flag is set exactly when the last one returned. */
  ghost predicate Latched(results: seq<bool>, submitted: bool)
  {
    (forall i :: 0 <= i < |results| - 1 ==> !results[i]) &&
    (submitted <==> |results| > 0 && results[|results| - 1])
  }

  function Trues(bs: seq<bool>): nat
    decreases |bs|
  {
    if bs == [] then 0 else Trues(bs[..|bs| - 1]) + (if bs[|bs| - 1] then 1 else 0)
  }

  /** A latched sequence of results holds at most one success, and one
      exactly when the flag is set. */
  lemma {:induction false} LatchedAtMostOnce(results: seq<bool>, submitted: bool)
    requires Latched(results, submitted)
    ensures Trues(results) == if submitted then 1 else 0
  {
    if results != [] {
      var init := results[..|results| - 1];
      NoTrues(init);
    }
  }

  lemma {:induction false} NoTrues(bs: seq<bool>)
    requires forall i :: 0 <= i < |bs| ==> !bs[i]
    ensures Trues(bs) == 0
    decreases |bs|
  {
    if bs != [] {
      NoTrues(bs[..|bs| - 1]);
    }
  }

  /** The log of a request for `total` enumerated files whose summary
      counts `files`: the count is the number of files reported; the
      completion summary is sent once when the count reaches the total and
      never before, and it carries the total; the sample latch holds; every
      reported record has the expected shape. */
  ghost predicate LogOk(requestId: string, total: nat, files: nat, submitted: bool, es: seq<Event>)
  {
    files == Added(es) &&
    Completions(es) == (if 0 < total <= files then 1 else 0) &&
    CompletionsCarry(es, total) &&
    Latched(PreflightResults(es), submitted) &&
    RecordsShaped(es, requestId)
  }

  /** A status update or a dropped chunk leaves the log consistent. */
  lemma LogOkNeutral(requestId: string, total: nat, files: nat, submitted: bool, es: seq<Event>, e: Event)
    requires LogOk(requestId, total, files, submitted, es)
    requires e.ChunkFailed? || e.call.StatusUpdate?
    ensures LogOk(requestId, total, files, submitted, es + [e])
    ensures FileAdds(es + [e]) == FileAdds(es) && PreflightResults(es + [e]) == PreflightResults(es)
    ensures Failures(es + [e]) == Failures(es) + (if e.ChunkFailed? then 1 else 0)
    ensures Unreturned(es + [e]) == Unreturned(es) + (if e.Called? && !e.returned then 1 else 0)
    ensures Completions(es + [e]) == Completions(es)
    ensures Notices(es + [e]) == Notices(es) + (if e.Called? then [NoticeOf(e.call)] else [])
  {
    LogAppend(es, e, total, requestId);
  }

  /** Reporting a record that does not complete the count: the count moves
      only when the call returned. */
  lemma LogOkFileAdd(requestId: string, total: nat, files: nat, submitted: bool, es: seq<Event>,
                     data: Dict, returned: bool)
    requires LogOk(requestId, total, files, submitted, es) && IsFileRecord(requestId, data)
    requires returned ==> total - (files + 1) != 0
    ensures LogOk(requestId, total, files + (if returned then 1 else 0), submitted,
                  es + [Called(FileAdd(data), returned)])
    ensures FileAdds(es + [Called(FileAdd(data), returned)]) == FileAdds(es) + [data]
    ensures PreflightResults(es + [Called(FileAdd(data), returned)]) == PreflightResults(es)
    ensures Failures(es + [Called(FileAdd(data), returned)]) == Failures(es)
    ensures Unreturned(es + [Called(FileAdd(data), returned)]) == Unreturned(es) + (if returned then 0 else 1)
    ensures Completions(es + [Called(FileAdd(data), returned)]) == Completions(es)
    ensures Notices(es + [Called(FileAdd(data), returned)]) == Notices(es)
  {
    LogAppend(es, Called(FileAdd(data), returned), total, requestId);
  }

  /** Reporting the record that completes the count, followed by the
      completion summary (and the status update when that returned). */
  lemma LogOkFileAddComplete(requestId: string, total: nat, files: nat, submitted: bool, es: seq<Event>,
                             data: Dict, info: Dict, status: Call, last: bool, tail: seq<Event>)
    requires LogOk(requestId, total, files, submitted, es) && IsFileRecord(requestId, data)
    requires total - (files + 1) == 0 && "files" in info && info["files"] == Int(total)
    requires tail == [Called(FilesetComplete(info), false)] ||
             (status.StatusUpdate? && tail == [Called(FilesetComplete(info), true), Called(status, last)])
    ensures LogOk(requestId, total, files + 1, submitted, es + [Called(FileAdd(data), true)] + tail)
    ensures FileAdds(es + [Called(FileAdd(data), true)] + tail) == FileAdds(es) + [data]
    ensures PreflightResults(es + [Called(FileAdd(data), true)] + tail) == PreflightResults(es)
    ensures Failures(es + [Called(FileAdd(data), true)] + tail) == Failures(es)
    ensures Unreturned(es + [Called(FileAdd(data), true)] + tail) ==
              Unreturned(es) + (if tail == [Called(FilesetComplete(info), false)] || !last then 1 else 0)
  {
    var e1 := es + [Called(FileAdd(data), true)];
    if tail == [Called(FilesetComplete(info), false)] {
      LogOkReached(requestId, total, files, submitted, es, data, info, false);
      assert e1 + tail == es + [Called(FileAdd(data), true)] + [Called(FilesetComplete(info), false)];
    } else {
      LogOkReached(requestId, total, files, submitted, es, data, info, true);
      var e2 := e1 + [Called(FilesetComplete(info), true)];
      assert e1 + tail == e2 + [Called(status, last)];
      LogOkNeutral(requestId, total, files + 1, submitted, e2, Called(status, last));
    }
  }

  /** The record that completes the count followed by the completion
      summary. */
  lemma LogOkReached(requestId: string, total: nat, files: nat, submitted: bool, es: seq<Event>,
                     data: Dict, info: Dict, returned: bool)
    requires LogOk(requestId, total, files, submitted, es) && IsFileRecord(requestId, data)
    requires total - (files + 1) == 0 && "files" in info && info["files"] == Int(total)
    ensures var es' := es + [Called(FileAdd(data), true)] + [Called(FilesetComplete(info), returned)];
            LogOk(requestId, total, files + 1, submitted, es') &&
            FileAdds(es') == FileAdds(es) + [data] && PreflightResults(es') == PreflightResults(es) &&
            Failures(es') == Failures(es) && Unreturned(es') == Unreturned(es) + (if returned then 0 else 1)
  {
    var e1 := es + [Called(FileAdd(data), true)];
    LogAppend(es, Called(FileAdd(data), true), total, requestId);
    LogAppend(e1, Called(FilesetComplete(info), returned), total, requestId);
  }

  /** Submitting the sample while the flag is clear: the flag follows the
      outcome of the call. */
  lemma LogOkPreflight(requestId: string, total: nat, files: nat, es: seq<Event>,
                       sample: Option<Dict>, returned: bool)
    requires LogOk(requestId, total, files, false, es)
    ensures LogOk(requestId, total, files, returned, es + [Called(Preflight(sample), returned)])
    ensures FileAdds(es + [Called(Preflight(sample), returned)]) == FileAdds(es)
    ensures Failures(es + [Called(Preflight(sample), returned)]) == Failures(es)
    ensures Unreturned(es + [Called(Preflight(sample), returned)]) == Unreturned(es) + (if returned then 0 else 1)
    ensures Completions(es + [Called(Preflight(sample), returned)]) == Completions(es)
    ensures Notices(es + [Called(Preflight(sample), returned)]) == Notices(es)
  {
    LogAppend(es, Called(Preflight(sample), returned), total, requestId);
  }

  /** Whatever happens, the log holds at most one completion summary and
      at most one preflight call that returned, and one exactly when the
      sample flag is set. */
  lemma LogOkAtMostOnce(requestId: string, total: nat, files: nat, submitted: bool, es: seq<Event>)
    requires LogOk(requestId, total, files, submitted, es)
    ensures Completions(es) <= 1
    ensures Trues(PreflightResults(es)) == if submitted then 1 else 0
  {
    LatchedAtMostOnce(PreflightResults(es), submitted);
  }

  /** Between the logs `e0` and `e1` no status update and no completion
      summary is sent, or the first completion summary `fc` is sent,
      possibly followed by the status update `cs`, and nothing else. */
  ghost predicate OnlyCompletion(e0: seq<Event>, e1: seq<Event>, fc: Notice, cs: Notice)
  {
    (Completions(e1) == Completions(e0) && Notices(e1) == Notices(e0)) ||
    (Completions(e0) == 0 && Completions(e1) == 1 &&
     (Notices(e1) == Notices(e0) + [fc] || Notices(e1) == Notices(e0) + [fc, cs]))
  }

  /** Every view of the empty log is empty. */
  lemma EmptyLog()
    ensures FileAdds([]) == [] && Failures([]) == 0 && Unreturned([]) == 0 && Added([]) == 0
    ensures Completions([]) == 0 && Notices([]) == [] && PreflightResults([]) == []
  {
  }

  lemma PrependEmpty<T>(s: seq<T>)
    ensures [] + s == s
  {
  }

  /** Concatenation is associative. */
  lemma AppendAssoc<T>(a: seq<T>, b: seq<T>, c: seq<T>)
    ensures (a + b) + c == a + (b + c)
  {
  }

  /** Taking one element more of a sequence. */
  lemma TakeNext<T>(q: seq<T>, k: nat)
    requires k < |q|
    ensures q[..k + 1] == q[..k] + [q[k]]
  {
  }

  /** Appending one element after `a + b`, and the head of the result. */
  lemma AppendOne<T>(a: seq<T>, b: seq<T>, x: T)
    ensures (a + b) + [x] == a + (b + [x])
    ensures (b + [x])[0] == if b == [] then x else b[0]
  {
  }

  /** The head of `a + b` is that of `a`, or that of `b` when `a` is
      empty. */
  lemma HeadAppend<T>(a: seq<T>, b: seq<T>)
    requires a + b != []
    ensures (a + b)[0] == if a == [] then b[0] else a[0]
  {
  }

  /** What a sequence holds, every extension of it holds. */
  lemma PrefixIn<T>(a: seq<T>, b: seq<T>, x: T)
    requires a <= b && x in a
    ensures x in b
  {
    var i :| 0 <= i < |a| && a[i] == x;
    assert b[i] == x;
  }

  lemma LastIn<T>(s: seq<T>)
    requires s != []
    ensures s[|s| - 1] in s
  {
  }

  /** Two stretches of the log compose: the first completion summary can
      be sent in only one of them. */
  lemma OnlyCompletionTrans(e0: seq<Event>, e1: seq<Event>, e2: seq<Event>, fc: Notice, cs: Notice)
    requires OnlyCompletion(e0, e1, fc, cs) && OnlyCompletion(e1, e2, fc, cs)
    ensures OnlyCompletion(e0, e2, fc, cs)
  {
  }

  /** The record that completes the count followed by the completion
      summary and, when that returned, the status update: the only
      notices added are a prefix of that pair. */
  lemma CompletionNoticed(requestId: string, total: nat, files: nat, submitted: bool, es: seq<Event>,
                          data: Dict, info: Dict, status: Call, last: bool, tail: seq<Event>)
    requires LogOk(requestId, total, files, submitted, es)
    requires total - (files + 1) == 0
    requires status.StatusUpdate?
    requires tail == [Called(FilesetComplete(info), false)] ||
             tail == [Called(FilesetComplete(info), true), Called(status, last)]
    ensures OnlyCompletion(es, es + [Called(FileAdd(data), true)] + tail,
                           NoticeOf(FilesetComplete(info)), NoticeOf(status))
  {
    var e1 := es + [Called(FileAdd(data), true)];
    LogAppend(es, Called(FileAdd(data), true), total, requestId);
    var e2 := e1 + [tail[0]];
    LogAppend(e1, tail[0], total, requestId);
    if |tail| == 1 {
      assert e1 + tail == e2;
    } else {
      assert e1 + tail == e2 + [Called(status, last)];
      LogAppend(e2, Called(status, last), total, requestId);
    }
  }

  // ---------------------------------------------------------------------
  // LookupRequest
  // ---------------------------------------------------------------------

  class LookupRequest {
    const requestId: string
    const did: string
    const site: Option<string>
    const prefix: string
    const chunkSize: int
    const numThreads: int
    const servicex: ServiceXAdapter
    /** `list(rucio_adapter.find_replicas(chunk, site))`, or what it raises. */
    const findReplicas: (seq<Dict>, Option<string>) -> Result<seq<Dict>>
    /** `RucioAdapter.get_sel_path(replica, prefix, site)`, or what it raises. */
    const getSelPath: (Dict, string, Option<string>) -> Result<Option<string>>
    /** `DIDSummary.accumulate`: the summary after recording a record. */
    const accumulate: (Summary, Dict) -> Summary
    /** `int(elapsed_time.total_seconds())` and `str(elapsed_time)` at completion. */
    const elapsedSeconds: int
    const elapsedText: string

    var summary: Summary
    var fileList: seq<Dict>
    /** `replica_lookup_queue` once created: its capacity and items. A
        capacity of 0 or less is an unbounded queue. */
    var queueCreated: bool
    var queueCapacity: int
    var queue: seq<seq<Dict>>
    var sampleSubmitted: bool
    /** The number of worker threads started. */
    var workers: nat

    ghost var events: seq<Event>
    /** Every chunk ever put on the queue, and every chunk taken off it. */
    ghost var built: seq<seq<Dict>>
    ghost var taken: seq<seq<Dict>>

    ghost predicate Fresh()
      reads this
    {
      summary.files == 0 && summary.accumulated == [] && fileList == [] && !queueCreated && queue == [] &&
      !sampleSubmitted && workers == 0 && events == [] && built == [] && taken == []
    }

    /** The request's bookkeeping invariant: the file count is the number
        of reported files; completion is reported once the count reaches
        the enumerated total and never before; the sample latch; the
        shape of reported records; no chunk lost or duplicated. */
    ghost predicate Valid()
      reads this
    {
      LogOk(requestId, |fileList|, summary.files, sampleSubmitted, events) &&
      taken + queue == built
    }

    /** The completion summary `report_lookup_complete` sends now. */
    function DoneInfo(): Dict
      reads this
    {
      CompletionInfo(summary, elapsedSeconds)
    }

    /** What the completion summary tells once every enumerated file is
        counted, and the status update that follows it. */
    function DoneNotice(): Notice
      reads this
    {
      CompletionNotice(Some(Int(|fileList|)))
    }

    function CompleteNotice(): Notice
    {
      NoticeOf(CompleteStatus())
    }

    /** The summary after `summary.accumulate(d)`: the file count is kept,
        the record is noted, and the other counters are what `accumulate`
        makes them. */
    function Accrued(s: Summary, d: Dict): (r: Summary)
      ensures r.files == s.files && r.accumulated == s.accumulated + [d]
    {
      var t := accumulate(s, d);
      Summary(s.files, t.filesSkipped, t.totalEvents, t.totalBytes, s.accumulated + [d])
    }

    /** The summary after accumulating every record of `ds`, in order. */
    function AccruedAll(s: Summary, ds: seq<Dict>): Summary
      decreases |ds|
    {
      if ds == [] then s else Accrued(AccruedAll(s, ds[..|ds| - 1]), ds[|ds| - 1])
    }

    /** What `report_lookup_complete` appends to the log: the completion
        summary and, when that returned, the status update; `raised` says
        whether either call raised. */
    ghost predicate CompletionTail(tail: seq<Event>, raised: bool)
      reads this
    {
      tail == [Called(FilesetComplete(DoneInfo()), true), Called(CompleteStatus(), !raised)] ||
      (raised && tail == [Called(FilesetComplete(DoneInfo()), false)])
    }

    constructor (requestId: string, did: string, servicex: ServiceXAdapter,
                 findReplicas: (seq<Dict>, Option<string>) -> Result<seq<Dict>>,
                 getSelPath: (Dict, string, Option<string>) -> Result<Option<string>>,
                 accumulate: (Summary, Dict) -> Summary,
                 site: Option<string> := None, prefix: string := "",
                 chunkSize: int := 1000, threads: int := 1,
                 elapsedSeconds: int := 0, elapsedText: string := "")
      ensures Fresh() && Valid()
      ensures this.requestId == requestId && this.did == did && this.servicex == servicex
      ensures this.findReplicas == findReplicas && this.getSelPath == getSelPath
      ensures this.accumulate == accumulate
      ensures this.site == site && this.prefix == prefix
      ensures this.chunkSize == chunkSize && this.numThreads == threads
    {
      this.requestId := requestId;
      this.did := did;
      this.servicex := servicex;
      this.findReplicas := findReplicas;
      this.getSelPath := getSelPath;
      this.accumulate := accumulate;
      this.site := site;
      this.prefix := prefix;
      this.chunkSize := chunkSize;
      this.numThreads := threads;
      this.elapsedSeconds := elapsedSeconds;
      this.elapsedText := elapsedText;
      summary := Summary(0, 0, 0, 0, []);
      fileList := [];
      queueCreated := false;
      queueCapacity := 0;
      queue := [];
      sampleSubmitted := false;
      workers := 0;
      events := [];
      built := [];
      taken := [];
    }

    /** What one pass of the loop over the replicas yields: nothing for a
        replica without a truthy selected path, otherwise its record; or
        what `get_sel_path` or the record's construction raises. */
    ghost function RecordOf(rep: Dict): (r: Result<Option<Dict>>)
      ensures getSelPath(rep, prefix, site).Raised? ==> r == Raised(getSelPath(rep, prefix, site).exc)
      ensures getSelPath(rep, prefix, site).Ok? && !IsTruthyPath(getSelPath(rep, prefix, site).value) ==> r == Ok(None)
      ensures getSelPath(rep, prefix, site).Ok? && IsTruthyPath(getSelPath(rep, prefix, site).value) ==>
                var data := FileData(requestId, rep, getSelPath(rep, prefix, site).value.value);
                (data.Raised? ==> r == Raised(data.exc)) && (data.Ok? ==> r == Ok(Some(data.value)))
    {
      match getSelPath(rep, prefix, site)
      case Raised(e) => Raised(e)
      case Ok(sel) =>
        if !IsTruthyPath(sel) then Ok(None)
        else
          match FileData(requestId, rep, sel.value)
          case Raised(e) => Raised(e)
          case Ok(d) => Ok(Some(d))
    }

    /** The records a chunk's replicas yield, in order, or the first
        exception. */
    ghost function ChunkRecords(reps: seq<Dict>): Result<seq<Dict>>
      decreases |reps|
    {
      if reps == [] then Ok([])
      else
        match ChunkRecords(reps[..|reps| - 1])
        case Raised(e) => Raised(e)
        case Ok(recs) =>
          match RecordOf(reps[|reps| - 1])
          case Raised(e) => Raised(e)
          case Ok(None) => Ok(recs)
          case Ok(Some(d)) => Ok(recs + [d])
    }

    /** Extending the replicas by one adds what that replica yields, or
        stops at what it raises. */
    lemma ChunkRecordsNext(reps: seq<Dict>, i: nat)
      requires i < |reps| && ChunkRecords(reps[..i]).Ok?
      ensures ChunkRecords(reps[..i + 1]) ==
                match RecordOf(reps[i])
                case Raised(e) => Raised(e)
                case Ok(None) => ChunkRecords(reps[..i])
                case Ok(Some(d)) => Ok(ChunkRecords(reps[..i]).value + [d])
    {
      assert reps[..i + 1][..i] == reps[..i];
    }

    /** Once a prefix of the replicas raises, the whole chunk raises. */
    lemma {:induction false} ChunkRecordsRaisedExtends(reps: seq<Dict>, i: nat)
      requires i <= |reps| && ChunkRecords(reps[..i]).Raised?
      ensures ChunkRecords(reps).Raised?
      decreases |reps| - i
    {
      if i < |reps| {
        var init := reps[..|reps| - 1];
        assert init[..i] == reps[..i];
        ChunkRecordsRaisedExtends(init, i);
        assert reps[..|reps|] == reps;
      } else {
        assert reps[..i] == reps;
      }
    }

    /** The number of replicas whose selected path is truthy. */
    ghost function Selected(reps: seq<Dict>): nat
      decreases |reps|
    {
      if reps == [] then 0
      else
        var sel := getSelPath(reps[|reps| - 1], prefix, site);
        Selected(reps[..|reps| - 1]) + (if sel.Ok? && IsTruthyPath(sel.value) then 1 else 0)
    }

    /** The replica loop succeeds exactly when no replica's path selection
        or record raises. */
    lemma {:induction false} ChunkRecordsOk(reps: seq<Dict>)
      ensures ChunkRecords(reps).Ok? <==> forall i :: 0 <= i < |reps| ==> RecordOf(reps[i]).Ok?
      decreases |reps|
    {
      if reps != [] {
        var n := |reps| - 1;
        var init := reps[..n];
        ChunkRecordsOk(init);
        assert forall i :: 0 <= i < n ==> reps[i] == init[i];
      }
    }

    /** When the replica loop succeeds, it yields one record per replica
        with a truthy selected path, in order: the record of replica `i`
        sits after those of the selected replicas before it. */
    lemma {:induction false} ChunkRecordsSelected(reps: seq<Dict>)
      requires ChunkRecords(reps).Ok?
      ensures |ChunkRecords(reps).value| == Selected(reps)
      ensures forall i :: 0 <= i < |reps| && getSelPath(reps[i], prefix, site).Ok? &&
                          IsTruthyPath(getSelPath(reps[i], prefix, site).value) ==>
                Selected(reps[..i]) < Selected(reps) &&
                FileData(requestId, reps[i], getSelPath(reps[i], prefix, site).value.value) ==
                  Ok(ChunkRecords(reps).value[Selected(reps[..i])])
      decreases |reps|
    {
      if reps != [] {
        var n := |reps| - 1;
        var init := reps[..n];
        var last := reps[n];
        assert ChunkRecords(init).Ok? && RecordOf(last).Ok?;
        ChunkRecordsSelected(init);
        var recs := ChunkRecords(reps).value;
        var pre := ChunkRecords(init).value;
        assert recs[..|pre|] == pre;
        forall i | 0 <= i < |reps| && getSelPath(reps[i], prefix, site).Ok? &&
                   IsTruthyPath(getSelPath(reps[i], prefix, site).value)
          ensures Selected(reps[..i]) < Selected(reps) &&
                  FileData(requestId, reps[i], getSelPath(reps[i], prefix, site).value.value) ==
                    Ok(recs[Selected(reps[..i])])
        {
          if i < n {
            assert reps[i] == init[i] && reps[..i] == init[..i];
            SelectedPrefix(init, i);
          } else {
            assert reps[..i] == init;
          }
        }
      }
    }

    /** A prefix selects no more replicas than the whole. */
    lemma {:induction false} SelectedPrefix(reps: seq<Dict>, i: nat)
      requires i <= |reps|
      ensures Selected(reps[..i]) <= Selected(reps)
      decreases |reps| - i
    {
      if i < |reps| {
        var init := reps[..|reps| - 1];
        assert init[..i] == reps[..i];
        SelectedPrefix(init, i);
      } else {
        assert reps[..i] == reps;
      }
    }

    /** The records of a prefix of the replicas that does not raise begin
        the records of the whole when that does not raise either. */
    lemma {:induction false} ChunkRecordsPrefix(reps: seq<Dict>, i: nat)
      requires i <= |reps| && ChunkRecords(reps[..i]).Ok? && ChunkRecords(reps).Ok?
      ensures ChunkRecords(reps[..i]).value <= ChunkRecords(reps).value
      decreases |reps| - i
    {
      if i < |reps| {
        var init := reps[..|reps| - 1];
        assert init[..i] == reps[..i];
        ChunkRecordsPrefix(init, i);
      } else {
        assert reps[..i] == reps;
      }
    }

    /** The number of files a chunk adds when nothing in it raises. */
    ghost function ChunkYield(chunk: seq<Dict>): nat
    {
      match findReplicas(chunk, site)
      case Raised(_) => 0
      case Ok(reps) =>
        match ChunkRecords(reps)
        case Raised(_) => 0
        case Ok(recs) => |recs|
    }

    ghost function TotalYield(chunks: seq<seq<Dict>>): nat
      decreases |chunks|
    {
      if chunks == [] then 0 else TotalYield(chunks[..|chunks| - 1]) + ChunkYield(chunks[|chunks| - 1])
    }

    lemma {:induction false} TotalYieldAppend(a: seq<seq<Dict>>, b: seq<seq<Dict>>)
      ensures TotalYield(a + b) == TotalYield(a) + TotalYield(b)
      decreases |b|
    {
      if b != [] {
        var b' := b[..|b| - 1];
        assert (a + b)[..|a + b| - 1] == a + b';
        TotalYieldAppend(a, b');
      } else {
        assert a + b == a;
      }
    }

    /** One call on the reporting client, recorded with its outcome. */
    method Notify(c: Call) returns (d: Delivery)
      modifies this`events, servicex
      ensures events == old(events) + [Called(c, !d.Raise?)]
      ensures c == Preflight(None) ==> d == Raise(TypeError)
      ensures Precheck(c).Some? ==> d == Raise(Precheck(c).value) && servicex.sent == old(servicex.sent)
      ensures Precheck(c).None? ==>
                var run := Retry(From(servicex.transport, old(|servicex.sent|)));
                d == run.delivery && |servicex.sent| == old(|servicex.sent|) + run.calls &&
                servicex.sent[..old(|servicex.sent|)] == old(servicex.sent) &&
                forall k :: old(|servicex.sent|) <= k < |servicex.sent| ==>
                  servicex.sent[k] == CallRequest(servicex.endpoint, c, servicex.clock(k))
    {
      match c {
        case StatusUpdate(info, severity) => d := servicex.PostStatusUpdate(info, severity);
        case FileAdd(data) => d := servicex.PutFileAdd(data);
        case Preflight(sample) => d := servicex.PostPreflightCheck(sample);
        case FilesetComplete(info) => d := servicex.PutFilesetComplete(info);
      }
      events := events + [Called(c, !d.Raise?)];
    }

    /** `report_lookup_complete`: send the summary, then a status update;
        an exception from the first call skips the second. */
    method ReportLookupComplete() returns (d: Delivery, ghost tail: seq<Event>)
      modifies this`events, servicex
      ensures events == old(events) + tail
      ensures var info := CompletionInfo(summary, elapsedSeconds);
              tail == [Called(FilesetComplete(info), true), Called(CompleteStatus(), !d.Raise?)] ||
              (d.Raise? && tail == [Called(FilesetComplete(info), false)])
    {
      var info := CompletionInfo(summary, elapsedSeconds);
      d := Notify(FilesetComplete(info));
      if d.Raise? {
        tail := [Called(FilesetComplete(info), false)];
        return;
      }
      d := Notify(CompleteStatus());
      tail := [Called(FilesetComplete(info), true), Called(CompleteStatus(), !d.Raise?)];
    }

    /** The status update that follows the completion summary. */
    function CompleteStatus(): Call
    {
      StatusUpdate("Fileset load complete in " + elapsedText, "info")
    }

    /** Report one record, count it, and report completion when the count
        reaches the number of enumerated files (the `summary_lock` section).
        `returned` says whether the file-add call returned and `rest` is
        what the completion report appended after it. */
    method AddFile(data: Dict) returns (d: Delivery, ghost returned: bool, ghost rest: seq<Event>)
      requires Valid() && IsFileRecord(requestId, data)
      modifies this`events, this`summary, servicex
      ensures Valid()
      ensures events == old(events) + [Called(FileAdd(data), returned)] + rest
      ensures returned <==> !Retry(From(servicex.transport, old(|servicex.sent|))).delivery.Raise?
      ensures !returned ==> d.Raise? && rest == [] && summary == old(summary)
      ensures returned ==>
                summary == Accrued(old(summary), data).(files := old(summary.files) + 1)
      ensures returned && summary.files != |fileList| ==>
                rest == [] && d == Retry(From(servicex.transport, old(|servicex.sent|))).delivery
      ensures returned && summary.files == |fileList| ==> CompletionTail(rest, d.Raise?)
      ensures OnlyCompletion(old(events), events, DoneNotice(), CompleteNotice())
      ensures Failures(events) == Failures(old(events))
      ensures FileAdds(events) == FileAdds(old(events)) + [data]
      ensures PreflightResults(events) == PreflightResults(old(events))
      ensures Unreturned(events) == Unreturned(old(events)) + (if d.Raise? then 1 else 0)
    {
      ghost var e0 := events;
      d := PostFileAdd(data);
      returned, rest := !d.Raise?, [];
      if d.Raise? {
        FileAddRaised(data, e0);
        return;
      }
      d, rest := Tally(data, e0, d);
    }

    /** The `summary_lock` section after a file-add call that returned:
        count the record and report completion when the count reaches
        the total. `added` is the delivery of the file-add call; `d` is
        that of the last call made. */
    method Tally(data: Dict, ghost e0: seq<Event>, added: Delivery) returns (d: Delivery, ghost rest: seq<Event>)
      requires LogOk(requestId, |fileList|, summary.files, sampleSubmitted, e0) && taken + queue == built
      requires IsFileRecord(requestId, data) && events == e0 + [Called(FileAdd(data), true)] && !added.Raise?
      modifies this`events, this`summary, servicex
      ensures Valid() && OnlyCompletion(e0, events, DoneNotice(), CompleteNotice())
      ensures events == e0 + [Called(FileAdd(data), true)] + rest
      ensures summary == Accrued(old(summary), data).(files := old(summary.files) + 1)
      ensures summary.files != |fileList| ==> rest == [] && d == added
      ensures summary.files == |fileList| ==> CompletionTail(rest, d.Raise?)
      ensures Failures(events) == Failures(e0) && FileAdds(events) == FileAdds(e0) + [data]
      ensures PreflightResults(events) == PreflightResults(e0)
      ensures Unreturned(events) == Unreturned(e0) + (if d.Raise? then 1 else 0)
    {
      if |fileList| - (summary.files + 1) != 0 {
        d, rest := added, [];
        CountFile(data, e0);
      } else {
        summary := Accrued(summary, data).(files := summary.files + 1);
        d, rest := CompleteAfter(data, e0);
      }
    }

    /** A file-add call that raised leaves the count and the log's
        invariant as they were. */
    lemma FileAddRaised(data: Dict, e0: seq<Event>)
      requires LogOk(requestId, |fileList|, summary.files, sampleSubmitted, e0) && taken + queue == built
      requires IsFileRecord(requestId, data) && events == e0 + [Called(FileAdd(data), false)]
      ensures Valid() && OnlyCompletion(e0, events, DoneNotice(), CompleteNotice())
      ensures Failures(events) == Failures(e0) && FileAdds(events) == FileAdds(e0) + [data]
      ensures PreflightResults(events) == PreflightResults(e0) && Unreturned(events) == Unreturned(e0) + 1
    {
      LogOkFileAdd(requestId, |fileList|, summary.files, sampleSubmitted, e0, data, false);
    }

    /** Count a reported record that does not complete the total. */
    method CountFile(data: Dict, ghost e0: seq<Event>)
      requires LogOk(requestId, |fileList|, summary.files, sampleSubmitted, e0) && taken + queue == built
      requires IsFileRecord(requestId, data) && events == e0 + [Called(FileAdd(data), true)]
      requires |fileList| - (summary.files + 1) != 0
      modifies this`summary
      ensures Valid() && OnlyCompletion(e0, events, DoneNotice(), CompleteNotice())
      ensures summary == Accrued(old(summary), data).(files := old(summary.files) + 1)
      ensures Failures(events) == Failures(e0) && FileAdds(events) == FileAdds(e0) + [data]
      ensures PreflightResults(events) == PreflightResults(e0) && Unreturned(events) == Unreturned(e0)
    {
      LogOkFileAdd(requestId, |fileList|, summary.files, sampleSubmitted, e0, data, true);
      summary := Accrued(summary, data).(files := summary.files + 1);
    }

    /** The file-add call for a record of the expected shape: it raises
        exactly when the delivery does. */
    method PostFileAdd(data: Dict) returns (d: Delivery)
      requires IsFileRecord(requestId, data)
      modifies this`events, servicex
      ensures events == old(events) + [Called(FileAdd(data), !d.Raise?)]
      ensures d == Retry(From(servicex.transport, old(|servicex.sent|))).delivery
    {
      FileRecordHasFileAddKeys(requestId, data);
      d := Notify(FileAdd(data));
    }

    /** The count has just reached the total with the report of `data`
        on top of the log `e0`: report completion. */
    method CompleteAfter(data: Dict, ghost e0: seq<Event>) returns (d: Delivery, ghost tail: seq<Event>)
      requires summary.files >= 1 && |fileList| == summary.files && taken + queue == built
      requires LogOk(requestId, |fileList|, summary.files - 1, sampleSubmitted, e0) && IsFileRecord(requestId, data)
      requires events == e0 + [Called(FileAdd(data), true)]
      modifies this`events, servicex
      ensures Valid()
      ensures events == e0 + [Called(FileAdd(data), true)] + tail && CompletionTail(tail, d.Raise?)
      ensures OnlyCompletion(e0, events, DoneNotice(), CompleteNotice())
      ensures Failures(events) == Failures(e0) && FileAdds(events) == FileAdds(e0) + [data]
      ensures PreflightResults(events) == PreflightResults(e0)
      ensures Unreturned(events) == Unreturned(e0) + (if d.Raise? then 1 else 0)
    {
      var info := CompletionInfo(summary, elapsedSeconds);
      CompletionInfoFields(summary, elapsedSeconds);
      d, tail := ReportLookupComplete();
      LogOkFileAddComplete(requestId, |fileList|, summary.files - 1, sampleSubmitted, e0, data, info,
                           CompleteStatus(), !d.Raise?, tail);
      CompletionNoticed(requestId, |fileList|, summary.files - 1, sampleSubmitted, e0, data, info,
                        CompleteStatus(), !d.Raise?, tail);
    }

    /** Submit the sample once: the flag is set only when the preflight call
        returns (the `sample_submitted_lock` section). */
    method SubmitSample(sample: Option<Dict>) returns (d: Delivery)
      requires Valid() && !sampleSubmitted
      modifies this`events, this`sampleSubmitted, servicex
      ensures Valid()
      ensures events == old(events) + [Called(Preflight(sample), !d.Raise?)]
      ensures FileAdds(events) == FileAdds(old(events)) && Failures(events) == Failures(old(events))
      ensures sampleSubmitted <==> !d.Raise?
      ensures sample.None? ==> d == Raise(TypeError)
      ensures sample.Some? && "file_path" in sample.value ==>
                d == Retry(From(servicex.transport, old(|servicex.sent|))).delivery
      ensures OnlyCompletion(old(events), events, DoneNotice(), CompleteNotice())
    {
      ghost var e0 := events;
      d := Notify(Preflight(sample));
      LogOkPreflight(requestId, |fileList|, summary.files, e0, sample, !d.Raise?);
      if !d.Raise? {
        sampleSubmitted := true;
      }
    }

    /** One pass of the loop over a chunk's replicas: a replica without a
        truthy selected path is skipped; otherwise its record is built and
        reported. The result is the reported record, if any. */
    method VisitReplica(rep: Dict) returns (r: Result<Option<Dict>>)
      requires Valid()
      modifies this`events, this`summary, servicex
      ensures Valid()
      ensures old(events) <= events && Failures(events) == Failures(old(events))
      ensures RecordOf(rep).Raised? ==> r == RecordOf(rep) && events == old(events) && summary == old(summary)
      ensures RecordOf(rep) == Ok(None) ==> r == Ok(None) && events == old(events) && summary == old(summary)
      ensures RecordOf(rep).Ok? && RecordOf(rep).value.Some? ==>
                FileAdds(events) == FileAdds(old(events)) + [RecordOf(rep).value.value] &&
                (r.Ok? ==> r == RecordOf(rep) && summary.files == old(summary.files) + 1)
      ensures Unreturned(events) == Unreturned(old(events)) + (if r.Raised? && RecordOf(rep).Ok? then 1 else 0)
      ensures OnlyCompletion(old(events), events, DoneNotice(), CompleteNotice())
    {
      var sel := getSelPath(rep, prefix, site);
      if sel.Raised? {
        return Raised(sel.exc);
      }
      if !IsTruthyPath(sel.value) {
        return Ok(None);
      }
      var data := FileData(requestId, rep, sel.value.value);
      if data.Raised? {
        return Raised(data.exc);
      }
      var d;
      ghost var returned, rest;
      d, returned, rest := AddFile(data.value);
      if d.Raise? {
        return Raised(d.exc);
      }
      return Ok(Some(data.value));
    }

    /** The state of the replica loop after `i` passes that all ended
        normally, starting from the log `events0` and the count `files0`:
        the records of the first `i` replicas are reported and counted, and
        the first of them is the sample. */
    ghost predicate RecordsSoFar(reps: seq<Dict>, i: nat, recs: seq<Dict>, events0: seq<Event>, files0: nat,
                                 sample: Option<Dict>)
      reads this
    {
      i <= |reps| && Valid() && events0 <= events && OnlyCompletion(events0, events, DoneNotice(), CompleteNotice()) &&
      Failures(events) == Failures(events0) && Unreturned(events) == Unreturned(events0) &&
      ChunkRecords(reps[..i]) == Ok(recs) && FileAdds(events) == FileAdds(events0) + recs &&
      summary.files == files0 + |recs| && sample == (if recs == [] then None else Some(recs[0]))
    }

    /** Pass `i` of the replica loop. When it raises, the records reported
        since `events0` are those of the first `reached` replicas. */
    method VisitAt(reps: seq<Dict>, i: nat, ghost recs: seq<Dict>, ghost events0: seq<Event>, ghost files0: nat,
                   sample: Option<Dict>)
      returns (r: Result<()>, sample': Option<Dict>, ghost recs': seq<Dict>, ghost reached: nat)
      requires i < |reps| && RecordsSoFar(reps, i, recs, events0, files0, sample)
      modifies this`events, this`summary, servicex
      ensures Valid()
      ensures events0 <= events && Failures(events) == Failures(events0) &&
              Unreturned(events) >= Unreturned(events0)
      ensures OnlyCompletion(events0, events, DoneNotice(), CompleteNotice())
      ensures r.Raised? ==> ChunkRecords(reps).Raised? || Unreturned(events) > Unreturned(events0)
      ensures r.Raised? ==>
                reached <= |reps| && ChunkRecords(reps[..reached]).Ok? &&
                FileAdds(events) == FileAdds(events0) + ChunkRecords(reps[..reached]).value
      ensures r.Ok? ==> RecordsSoFar(reps, i + 1, recs', events0, files0, sample')
    {
      ChunkRecordsNext(reps, i);
      ghost var e1 := events;
      var added := VisitReplica(reps[i]);
      assert events0 <= e1 <= events;
      OnlyCompletionTrans(events0, e1, events, DoneNotice(), CompleteNotice());
      sample', recs', reached := sample, recs, i;
      if added.Raised? {
        if RecordOf(reps[i]).Raised? {
          ChunkRecordsRaisedExtends(reps, i + 1);
        } else {
          reached := i + 1;
          var data := RecordOf(reps[i]).value.value;
          assert ChunkRecords(reps[..reached]) == Ok(recs + [data]);
          AppendOne(FileAdds(events0), recs, data);
        }
        return Raised(added.exc), sample', recs', reached;
      }
      assert added == RecordOf(reps[i]);
      if added.value.Some? {
        var data := added.value.value;
        if sample.None? {
          sample' := Some(data);
        }
        recs' := recs + [data];
        assert ChunkRecords(reps[..i + 1]) == Ok(recs');
        AppendOne(FileAdds(events0), recs, data);
      } else {
        assert ChunkRecords(reps[..i + 1]) == Ok(recs');
      }
      return Ok(()), sample', recs', reached;
    }

    /** The loop over one chunk's replicas: report the record of every
        replica with a selected path, and remember the first as the sample.
        It ends normally exactly when nothing in the chunk raises and every
        reporting call returns. The records reported are those of the
        first `reached` replicas: all of them when it ends normally. */
    method AddRecords(reps: seq<Dict>) returns (r: Result<()>, sample: Option<Dict>, ghost reached: nat)
      requires Valid()
      modifies this`events, this`summary, servicex
      ensures Valid()
      ensures old(events) <= events && Failures(events) == Failures(old(events))
      ensures OnlyCompletion(old(events), events, DoneNotice(), CompleteNotice())
      ensures reached <= |reps| && ChunkRecords(reps[..reached]).Ok? &&
              FileAdds(events) == FileAdds(old(events)) + ChunkRecords(reps[..reached]).value
      ensures r.Ok? ==> reached == |reps|
      ensures Unreturned(events) >= Unreturned(old(events))
      ensures r.Ok? <==> ChunkRecords(reps).Ok? && Unreturned(events) == Unreturned(old(events))
      ensures r.Ok? ==>
                FileAdds(events) == FileAdds(old(events)) + ChunkRecords(reps).value &&
                summary.files == old(summary.files) + |ChunkRecords(reps).value| &&
                sample == if ChunkRecords(reps).value == [] then None else Some(ChunkRecords(reps).value[0])
    {
      sample := None;
      ghost var recs: seq<Dict> := [];
      ghost var events0, files0 := events, summary.files;
      var i := 0;
      while i < |reps|
        invariant RecordsSoFar(reps, i, recs, events0, files0, sample)
      {
        var visited;
        visited, sample, recs, reached := VisitAt(reps, i, recs, events0, files0, sample);
        if visited.Raised? {
          return Raised(visited.exc), sample, reached;
        }
        i := i + 1;
      }
      assert reps[..|reps|] == reps;
      return Ok(()), sample, |reps|;
    }

    /** A chunk whose replicas are found and whose records can all be
        built. */
    ghost predicate ChunkSucceeds(chunk: seq<Dict>)
    {
      findReplicas(chunk, site).Ok? && ChunkRecords(findReplicas(chunk, site).value).Ok?
    }

    ghost predicate AllSucceed(chunks: seq<seq<Dict>>)
      decreases |chunks|
    {
      chunks == [] || (AllSucceed(chunks[..|chunks| - 1]) && ChunkSucceeds(chunks[|chunks| - 1]))
    }

    /** The records a succeeding chunk reports, in order. */
    ghost function ChunkFiles(chunk: seq<Dict>): seq<Dict>
      requires ChunkSucceeds(chunk)
    {
      ChunkRecords(findReplicas(chunk, site).value).value
    }

    /** The records a sequence of succeeding chunks reports, in order. */
    ghost function AllFiles(chunks: seq<seq<Dict>>): seq<Dict>
      requires AllSucceed(chunks)
      decreases |chunks|
    {
      if chunks == [] then [] else AllFiles(chunks[..|chunks| - 1]) + ChunkFiles(chunks[|chunks| - 1])
    }

    /** The chunks' records number their total yield. */
    lemma {:induction false} AllFilesYield(chunks: seq<seq<Dict>>)
      requires AllSucceed(chunks)
      ensures |AllFiles(chunks)| == TotalYield(chunks)
      decreases |chunks|
    {
      if chunks != [] {
        AllFilesYield(chunks[..|chunks| - 1]);
      }
    }

    /** The records reported for a chunk whose processing stopped after its
        first `n` replicas (after all of them when it did not raise); none
        when its replicas could not be found. */
    ghost function ChunkReported(chunk: seq<Dict>, n: nat): seq<Dict>
    {
      if findReplicas(chunk, site).Ok? && n <= |findReplicas(chunk, site).value| &&
         ChunkRecords(findReplicas(chunk, site).value[..n]).Ok?
      then ChunkRecords(findReplicas(chunk, site).value[..n]).value
      else []
    }

    /** Whatever the point at which a succeeding chunk's processing
        stopped, what it reported begins the chunk's records. */
    lemma ChunkReportedPrefix(chunk: seq<Dict>, n: nat)
      requires ChunkSucceeds(chunk)
      ensures ChunkReported(chunk, n) <= ChunkFiles(chunk)
    {
      var reps := findReplicas(chunk, site).value;
      if n <= |reps| && ChunkRecords(reps[..n]).Ok? {
        ChunkRecordsPrefix(reps, n);
      }
    }

    /** The records reported for the chunks `q`, the `i`-th of which
        stopped after `rs[i]` replicas, in order. */
    ghost function Reported(q: seq<seq<Dict>>, rs: seq<nat>): seq<Dict>
      requires |rs| == |q|
      decreases |q|
    {
      if q == [] then [] else Reported(q[..|q| - 1], rs[..|rs| - 1]) + ChunkReported(q[|q| - 1], rs[|rs| - 1])
    }

    /** Extending the processed chunks by one. */
    lemma ReportedNext(q: seq<seq<Dict>>, rs: seq<nat>, k: nat, rk: nat)
      requires k < |q| && |rs| == k
      ensures Reported(q[..k + 1], rs + [rk]) == Reported(q[..k], rs) + ChunkReported(q[k], rk)
    {
      var q1, rs1 := q[..k + 1], rs + [rk];
      assert q1[..k] == q[..k] && q1[k] == q[k];
      assert rs1[..k] == rs && rs1[k] == rk;
      assert Reported(q1, rs1) == Reported(q1[..k], rs1[..k]) + ChunkReported(q1[k], rs1[k]);
    }

    /** What processing `chunk` did to the log, count and sample flag, from
        `e0`, `files0`, `sub0` to `e`, `files`, `sub`, having stopped after
        `reached` replicas; `ok` says whether it ended normally. The log
        only grew, by the records of those replicas, and no chunk was
        dropped; it ended normally exactly when the chunk succeeds and
        every reporting call returned, and then all the chunk's records
        were reported and counted and, if the flag was clear, the first of
        them was submitted as the sample by the last call; replicas that
        could not be found change nothing; once set the flag stays set;
        the only notices are the completion pair. */
    ghost predicate Processed(chunk: seq<Dict>, e0: seq<Event>, files0: nat, sub0: bool,
                              e: seq<Event>, files: nat, sub: bool, reached: nat, ok: bool)
      reads this
    {
      e0 <= e && Failures(e) == Failures(e0) && Unreturned(e) >= Unreturned(e0) &&
      (findReplicas(chunk, site).Ok? ==>
         var reps := findReplicas(chunk, site).value;
         reached <= |reps| && ChunkRecords(reps[..reached]).Ok? &&
         FileAdds(e) == FileAdds(e0) + ChunkRecords(reps[..reached]).value) &&
      (ok <==> ChunkSucceeds(chunk) && Unreturned(e) == Unreturned(e0)) &&
      (ok ==>
         var recs := ChunkRecords(findReplicas(chunk, site).value).value;
         FileAdds(e) == FileAdds(e0) + recs &&
         files == files0 + |recs| == files0 + ChunkYield(chunk) &&
         (!sub0 ==> |recs| > 0 && sub && e != [] && e[|e| - 1] == Called(Preflight(Some(recs[0])), true))) &&
      (findReplicas(chunk, site).Raised? ==> e == e0 && files == files0 && sub == sub0) &&
      (sub0 ==> sub) &&
      OnlyCompletion(e0, e, DoneNotice(), CompleteNotice())
    }

    /** A chunk whose processing ended normally was attempted as
        `Attempted` says. */
    lemma AttemptedKept(chunk: seq<Dict>, e0: seq<Event>, files0: nat, sub0: bool,
                        e: seq<Event>, files: nat, sub: bool, reached: nat)
      requires Processed(chunk, e0, files0, sub0, e, files, sub, reached, true)
      ensures Attempted(chunk, e0, files0, sub0, e, files, sub, reached)
    {
    }

    /** A chunk whose processing raised, once dropped, was attempted as
        `Attempted` says. */
    lemma AttemptedDropped(chunk: seq<Dict>, e0: seq<Event>, files0: nat, sub0: bool, e1: seq<Event>,
                           e: seq<Event>, files: nat, sub: bool, reached: nat, exc: Exc)
      requires Processed(chunk, e0, files0, sub0, e1, files, sub, reached, false)
      requires e == e1 + [ChunkFailed(chunk, exc)] && FileAdds(e) == FileAdds(e1)
      requires Failures(e) == Failures(e1) + 1 && Unreturned(e) == Unreturned(e1)
      requires OnlyCompletion(e1, e, DoneNotice(), CompleteNotice())
      ensures Attempted(chunk, e0, files0, sub0, e, files, sub, reached)
    {
      OnlyCompletionTrans(e0, e1, e, DoneNotice(), CompleteNotice());
    }

    /** The body of the `try` in `replica_lookup` for one chunk. It ends
        normally exactly when the chunk succeeds and every reporting call
        it makes returns. */
    method ProcessChunk(chunk: seq<Dict>) returns (r: Result<()>, ghost reached: nat)
      requires Valid()
      modifies this`events, this`summary, this`sampleSubmitted, servicex
      ensures Valid()
      ensures Processed(chunk, old(events), old(summary.files), old(sampleSubmitted),
                        events, summary.files, sampleSubmitted, reached, r.Ok?)
      ensures findReplicas(chunk, site).Raised? ==> r == Raised(findReplicas(chunk, site).exc) && summary == old(summary)
    {
      var found := findReplicas(chunk, site);
      if found.Raised? {
        return Raised(found.exc), 0;
      }
      var sample;
      r, sample, reached := AddRecords(found.value);
      if r.Raised? || sampleSubmitted {
        return;
      }
      ghost var e0 := events;
      var d := SubmitSample(sample);
      assert old(events) <= e0 <= events;
      OnlyCompletionTrans(old(events), e0, events, DoneNotice(), CompleteNotice());
      if d.Raise? {
        return Raised(d.exc), reached;
      }
    }

    /** What attempting `chunk` did to the log, count and sample flag, from
        `e0`, `files0`, `sub0` to `e`, `files`, `sub`, its processing
        having stopped after `reached` replicas: the log only grew, by the
        records of those replicas; the chunk was dropped, with one
        `ChunkFailed` entry at the end of the log, unless it succeeded and
        every reporting call returned, and then all its records were
        reported and counted and, if the flag was clear, the first of them
        was submitted as the sample by the last call; once set the flag
        stays set; the only notices are the completion pair. */
    ghost predicate Attempted(chunk: seq<Dict>, e0: seq<Event>, files0: nat, sub0: bool,
                              e: seq<Event>, files: nat, sub: bool, reached: nat)
      reads this
    {
      e0 <= e && Unreturned(e) >= Unreturned(e0) &&
      (var ok := ChunkSucceeds(chunk) && Unreturned(e) == Unreturned(e0);
       Failures(e) == Failures(e0) + (if ok then 0 else 1) &&
       (!ok ==> e != [] && e[|e| - 1].ChunkFailed? && e[|e| - 1].chunk == chunk)) &&
      FileAdds(e) == FileAdds(e0) + ChunkReported(chunk, reached) &&
      (findReplicas(chunk, site).Ok? ==>
         reached <= |findReplicas(chunk, site).value| &&
         ChunkRecords(findReplicas(chunk, site).value[..reached]).Ok?) &&
      (Failures(e) == Failures(e0) ==>
         files == files0 + ChunkYield(chunk) && FileAdds(e) == FileAdds(e0) + ChunkFiles(chunk)) &&
      (sub0 ==> sub) &&
      (Failures(e) == Failures(e0) && !sub0 ==>
         sub && ChunkFiles(chunk) != [] && e != [] &&
         e[|e| - 1] == Called(Preflight(Some(ChunkFiles(chunk)[0])), true)) &&
      OnlyCompletion(e0, e, DoneNotice(), CompleteNotice())
    }

    /** One iteration of the `replica_lookup` loop: take the next chunk and
        attempt it. */
    method Step() returns (ghost reached: nat)
      requires Valid() && queue != []
      modifies this`queue, this`taken, this`events, this`summary, this`sampleSubmitted, servicex
      ensures Valid()
      ensures queue == old(queue)[1..] && taken == old(taken) + [old(queue)[0]]
      ensures Attempted(old(queue)[0], old(events), old(summary.files), old(sampleSubmitted),
                        events, summary.files, sampleSubmitted, reached)
    {
      var chunk := TakeFront();
      reached := Attempt(chunk);
    }

    /** The `try`/`except` around one chunk. When the chunk does not
        succeed or a reporting call raises, the exception is logged:
        exactly one `ChunkFailed` entry for that chunk is appended, and
        the chunk is dropped. */
    method Attempt(chunk: seq<Dict>) returns (ghost reached: nat)
      requires Valid()
      modifies this`events, this`summary, this`sampleSubmitted, servicex
      ensures Valid()
      ensures Attempted(chunk, old(events), old(summary.files), old(sampleSubmitted),
                        events, summary.files, sampleSubmitted, reached)
    {
      ghost var e0, files0, sub0 := events, summary.files, sampleSubmitted;
      var r;
      r, reached := ProcessChunk(chunk);
      if r.Raised? {
        ghost var e1 := events;
        DropChunk(chunk, r.exc);
        AttemptedDropped(chunk, e0, files0, sub0, e1, events, summary.files, sampleSubmitted, reached, r.exc);
      } else {
        AttemptedKept(chunk, e0, files0, sub0, events, summary.files, sampleSubmitted, reached);
      }
    }

    /** `get_nowait`: take the chunk at the front of the queue. */
    method TakeFront() returns (chunk: seq<Dict>)
      requires Valid() && queue != []
      modifies this`queue, this`taken
      ensures Valid()
      ensures chunk == old(queue)[0] && queue == old(queue)[1..] && taken == old(taken) + [chunk]
    {
      chunk := queue[0];
      queue := queue[1..];
      taken := taken + [chunk];
      assert taken + queue == built by {
        assert old(queue) == [chunk] + queue;
      }
    }

    /** The `except` clause: the chunk's exception is logged and the chunk
        dropped. */
    method DropChunk(chunk: seq<Dict>, exc: Exc)
      requires Valid()
      modifies this`events
      ensures Valid()
      ensures events == old(events) + [ChunkFailed(chunk, exc)]
      ensures Failures(events) == Failures(old(events)) + 1 && Unreturned(events) == Unreturned(old(events))
      ensures FileAdds(events) == FileAdds(old(events))
      ensures OnlyCompletion(old(events), events, DoneNotice(), CompleteNotice())
    {
      LogOkNeutral(requestId, |fileList|, summary.files, sampleSubmitted, events, ChunkFailed(chunk, exc));
      events := events + [ChunkFailed(chunk, exc)];
    }

    /** The log and count `e`, `files` after the first `k` chunks of `q`
        were processed starting from `e0`, `files0`: the log only grew; no
        chunk was dropped exactly when all `k` succeeded and every
        reporting call returned, and then their records are the ones
        reported and counted; the only notices are the completion pair. */
    ghost predicate Drained(q: seq<seq<Dict>>, k: nat, e0: seq<Event>, files0: nat, e: seq<Event>, files: nat)
      reads this
    {
      k <= |q| && e0 <= e && Failures(e) >= Failures(e0) && Unreturned(e) >= Unreturned(e0) &&
      (Failures(e) == Failures(e0) <==> AllSucceed(q[..k]) && Unreturned(e) == Unreturned(e0)) &&
      (Failures(e) == Failures(e0) ==>
         files == files0 + TotalYield(q[..k]) && FileAdds(e) == FileAdds(e0) + AllFiles(q[..k])) &&
      OnlyCompletion(e0, e, DoneNotice(), CompleteNotice())
    }

    /** One more chunk attempted extends what is known of the chunks
        processed before it. */
    lemma DrainedStep(q: seq<seq<Dict>>, k: nat, e0: seq<Event>, files0: nat, sub0: bool, rs: seq<nat>,
                      e1: seq<Event>, files1: nat, sub1: bool, e: seq<Event>, files: nat, sub: bool, rk: nat)
      requires k < |q| && Drained(q, k, e0, files0, e1, files1) && ReportedAs(q, k, e0, e1, rs)
      requires Sampled(q, k, e0, sub0, e1, sub1)
      requires Attempted(q[k], e1, files1, sub1, e, files, sub, rk)
      ensures Drained(q, k + 1, e0, files0, e, files) && ReportedAs(q, k + 1, e0, e, rs + [rk])
      ensures Sampled(q, k + 1, e0, sub0, e, sub)
    {
      DrainedNext(q, k, e0, files0, e1, files1, e, files);
      ReportedAsNext(q, k, e0, e1, rs, e, rk);
      SampledNext(q, k, e0, sub0, e1, sub1, e, sub);
    }

    /** One more chunk processed as `Step` promises extends `Drained` by
        that chunk. */
    lemma DrainedNext(q: seq<seq<Dict>>, k: nat, e0: seq<Event>, files0: nat, e1: seq<Event>, files1: nat,
                      e: seq<Event>, files: nat)
      requires Drained(q, k, e0, files0, e1, files1) && k < |q|
      requires e1 <= e && Unreturned(e) >= Unreturned(e1)
      requires var ok := ChunkSucceeds(q[k]) && Unreturned(e) == Unreturned(e1);
               Failures(e) == Failures(e1) + (if ok then 0 else 1)
      requires Failures(e) == Failures(e1) ==>
                 files == files1 + ChunkYield(q[k]) && FileAdds(e) == FileAdds(e1) + ChunkFiles(q[k])
      requires OnlyCompletion(e1, e, DoneNotice(), CompleteNotice())
      ensures Drained(q, k + 1, e0, files0, e, files)
    {
      ChunksNext(q, k);
      OnlyCompletionTrans(e0, e1, e, DoneNotice(), CompleteNotice());
      if Failures(e) == Failures(e0) {
        AppendAssoc(FileAdds(e0), AllFiles(q[..k]), ChunkFiles(q[k]));
      }
    }

    /** The log `e` after the first `k` chunks of `q` were processed
        starting from `e0`, the `i`-th stopping after `rs[i]` replicas:
        it grew by the records those chunks reported, whether or not they
        raised. */
    ghost predicate ReportedAs(q: seq<seq<Dict>>, k: nat, e0: seq<Event>, e: seq<Event>, rs: seq<nat>)
    {
      k <= |q| && |rs| == k && FileAdds(e) == FileAdds(e0) + Reported(q[..k], rs)
    }

    lemma ReportedAsNext(q: seq<seq<Dict>>, k: nat, e0: seq<Event>, e1: seq<Event>, rs: seq<nat>,
                         e: seq<Event>, rk: nat)
      requires ReportedAs(q, k, e0, e1, rs) && k < |q|
      requires FileAdds(e) == FileAdds(e1) + ChunkReported(q[k], rk)
      ensures ReportedAs(q, k + 1, e0, e, rs + [rk])
    {
      ReportedNext(q, rs, k, rk);
      AppendAssoc(FileAdds(e0), Reported(q[..k], rs), ChunkReported(q[k], rk));
    }

    /** The sample flag `sub` and log `e` after the first `k` chunks of
        `q` were processed starting from `sub0`, `e0`: once set the flag
        stays set; when it was clear and no chunk was dropped, it is set
        and the first record of those chunks was submitted as the sample
        by a preflight call that returned. */
    ghost predicate Sampled(q: seq<seq<Dict>>, k: nat, e0: seq<Event>, sub0: bool, e: seq<Event>, sub: bool)
    {
      k <= |q| && (k == 0 ==> sub == sub0) && (sub0 ==> sub) &&
      (Failures(e) == Failures(e0) && !sub0 && k > 0 ==>
         AllSucceed(q[..k]) && sub && AllFiles(q[..k]) != [] &&
         Called(Preflight(Some(AllFiles(q[..k])[0])), true) in e)
    }

    /** One more chunk processed as `Step` promises extends `Sampled`: the
        first chunk to go through with the flag clear submits its first
        record, and later chunks leave the sample as it was. */
    lemma SampledNext(q: seq<seq<Dict>>, k: nat, e0: seq<Event>, sub0: bool, e1: seq<Event>, sub1: bool,
                      e: seq<Event>, sub: bool)
      requires Sampled(q, k, e0, sub0, e1, sub1) && k < |q| && e1 <= e
      requires Failures(e0) <= Failures(e1) <= Failures(e)
      requires Failures(e) == Failures(e1) ==> ChunkSucceeds(q[k])
      requires sub1 ==> sub
      requires Failures(e) == Failures(e1) && !sub1 ==>
                 sub && ChunkFiles(q[k]) != [] && e != [] &&
                 e[|e| - 1] == Called(Preflight(Some(ChunkFiles(q[k])[0])), true)
      ensures Sampled(q, k + 1, e0, sub0, e, sub)
    {
      if Failures(e) == Failures(e0) && !sub0 {
        ChunksNext(q, k);
        HeadAppend(AllFiles(q[..k]), ChunkFiles(q[k]));
        if k == 0 {
          assert q[..0] == [];
          LastIn(e);
        } else {
          PrefixIn(e1, e, Called(Preflight(Some(AllFiles(q[..k])[0])), true));
        }
      }
    }

    /** Extending the processed chunks by one. */
    lemma ChunksNext(q: seq<seq<Dict>>, k: nat)
      requires k < |q|
      ensures AllSucceed(q[..k + 1]) <==> AllSucceed(q[..k]) && ChunkSucceeds(q[k])
      ensures TotalYield(q[..k + 1]) == TotalYield(q[..k]) + ChunkYield(q[k])
      ensures AllSucceed(q[..k + 1]) ==> AllFiles(q[..k + 1]) == AllFiles(q[..k]) + ChunkFiles(q[k])
    {
      assert q[..k + 1][..k] == q[..k];
      assert q[..k + 1] == q[..k] + [q[k]];
      TotalYieldAppend(q[..k], [q[k]]);
    }

    /** `replica_lookup`: drain the queue one chunk per iteration. No chunk
        is dropped exactly when every chunk succeeds and every reporting
        call returns; then the records of the queued chunks are reported
        in order. */
    method ReplicaLookup() returns (ghost reached: seq<nat>)
      requires Valid() && queueCreated
      modifies this`queue, this`taken, this`events, this`summary, this`sampleSubmitted, servicex
      ensures Valid() && queue == [] && taken == old(taken) + old(queue)
      ensures old(events) <= events && Failures(events) >= Failures(old(events))
      ensures Unreturned(events) >= Unreturned(old(events))
      ensures Failures(events) == Failures(old(events)) <==>
                AllSucceed(old(queue)) && Unreturned(events) == Unreturned(old(events))
      ensures Failures(events) == Failures(old(events)) ==>
                summary.files == old(summary.files) + TotalYield(old(queue)) &&
                FileAdds(events) == FileAdds(old(events)) + AllFiles(old(queue))
      ensures |reached| == |old(queue)| && FileAdds(events) == FileAdds(old(events)) + Reported(old(queue), reached)
      ensures OnlyCompletion(old(events), events, DoneNotice(), CompleteNotice())
      ensures old(sampleSubmitted) ==> sampleSubmitted
      ensures old(queue) == [] ==>
                events == old(events) && summary.files == old(summary.files) && sampleSubmitted == old(sampleSubmitted)
      ensures Failures(events) == Failures(old(events)) && !old(sampleSubmitted) && old(queue) != [] ==>
                sampleSubmitted && AllFiles(old(queue)) != [] &&
                Called(Preflight(Some(AllFiles(old(queue))[0])), true) in events
    {
      ghost var k := 0;
      reached := [];
      assert old(queue)[..0] == [];
      while queue != []
        invariant Valid() && 0 <= k <= |old(queue)|
        invariant queue == old(queue)[k..] && taken == old(taken) + old(queue)[..k]
        invariant Drained(old(queue), k, old(events), old(summary.files), events, summary.files)
        invariant ReportedAs(old(queue), k, old(events), events, reached)
        invariant Sampled(old(queue), k, old(events), old(sampleSubmitted), events, sampleSubmitted)
        invariant k == 0 ==> events == old(events) && summary.files == old(summary.files)
        decreases |queue|
      {
        ghost var rk := DrainOne(old(queue), k, old(taken), old(events), old(summary.files), old(sampleSubmitted), reached);
        reached := reached + [rk];
        k := k + 1;
      }
      assert old(queue)[..k] == old(queue);
    }

    /** One iteration of `replica_lookup` extends `Drained`, `ReportedAs`
        and `Sampled` by the chunk it takes. */
    method DrainOne(ghost q: seq<seq<Dict>>, ghost k: nat, ghost taken0: seq<seq<Dict>>, ghost e0: seq<Event>,
                    ghost files0: nat, ghost sub0: bool, ghost rs: seq<nat>) returns (ghost rk: nat)
      requires Valid() && k < |q| && queue == q[k..] && taken == taken0 + q[..k]
      requires Drained(q, k, e0, files0, events, summary.files) && ReportedAs(q, k, e0, events, rs)
      requires Sampled(q, k, e0, sub0, events, sampleSubmitted)
      modifies this`queue, this`taken, this`events, this`summary, this`sampleSubmitted, servicex
      ensures Valid() && queue == q[k + 1..] && taken == taken0 + q[..k + 1]
      ensures Drained(q, k + 1, e0, files0, events, summary.files) && ReportedAs(q, k + 1, e0, events, rs + [rk])
      ensures Sampled(q, k + 1, e0, sub0, events, sampleSubmitted)
    {
      ghost var e1, files1, sub1 := events, summary.files, sampleSubmitted;
      assert queue[0] == q[k] && queue[1..] == q[k + 1..];
      rk := Step();
      DrainedStep(q, k, e0, files0, sub0, rs, e1, files1, sub1, events, summary.files, sampleSubmitted, rk);
      TakeNext(q, k);
      AppendOne(taken0, q[..k], q[k]);
    }

    /** `put_nowait` on the request queue: a bounded queue that is full
        raises `QueueFull`; otherwise the item goes to the back. */
    method PutNowait(item: seq<Dict>) returns (r: Result<()>)
      modifies this`queue, this`built
      ensures 0 < queueCapacity <= |old(queue)| ==>
                r == Raised(QueueFull) && queue == old(queue) && built == old(built)
      ensures !(0 < queueCapacity <= |old(queue)|) ==>
                r == Ok(()) && queue == old(queue) + [item] && built == old(built) + [item]
    {
      if 0 < queueCapacity <= |queue| {
        return Raised(QueueFull);
      }
      queue := queue + [item];
      built := built + [item];
      return Ok(());
    }

    /** A fatal status update, sent while the log is still empty of file
        reports. */
    method ReportFatal(msg: string) returns (r: Result<()>)
      requires Valid()
      modifies this`events, servicex
      ensures Valid()
      ensures events == old(events) + [Called(StatusUpdate(msg, "fatal"), r.Ok?)]
    {
      LogOkNeutral(requestId, |fileList|, summary.files, sampleSubmitted, events, Called(StatusUpdate(msg, "fatal"), true));
      LogOkNeutral(requestId, |fileList|, summary.files, sampleSubmitted, events, Called(StatusUpdate(msg, "fatal"), false));
      var d := Notify(StatusUpdate(msg, "fatal"));
      r := if d.Raise? then Raised(d.exc) else Ok(());
    }

    /** The loop of `lookup_files` that queues the projected chunks. The
        queue's capacity is the number of chunks, so `put_nowait` never
        raises `QueueFull`; only a `KeyError` of the projection stops it. */
    method FillQueue() returns (r: Result<()>)
      requires chunkSize > 0 && queue == [] && built == []
      requires queueCapacity == CeilDiv(|fileList|, chunkSize as nat)
      modifies this`queue, this`built
      ensures queue == built
      ensures var cs := Chunks(fileList, chunkSize as nat);
              |queue| <= |cs| && (forall j :: 0 <= j < |queue| ==> ProjectChunk(cs[j]) == Ok(queue[j])) &&
              (r.Ok? <==> |queue| == |cs|) &&
              (r.Ok? ==> ProjectChunk(fileList) == Ok(Flatten(queue))) &&
              (r.Raised? ==> ProjectChunk(cs[|queue|]).Raised? && r == Raised(ProjectChunk(cs[|queue|]).exc))
    {
      var cs := Chunks(fileList, chunkSize);
      ChunksCount(fileList, chunkSize);
      var k := 0;
      while k < |cs|
        invariant 0 <= k <= |cs| && |queue| == k && queue == built
        invariant forall j :: 0 <= j < k ==> ProjectChunk(cs[j]) == Ok(queue[j])
      {
        var projected := ProjectChunk(cs[k]);
        if projected.Raised? {
          return Raised(projected.exc);
        }
        var put := PutNowait(projected.value);
        assert put.Ok?;
        k := k + 1;
      }
      QueueHoldsEveryFile(fileList, chunkSize, queue);
      return Ok(());
    }

    /** `summary.accumulate(file)` for every enumerated file, in order. */
    method Accumulate()
      modifies this`summary
      ensures summary == AccruedAll(old(summary), fileList)
      ensures summary.files == old(summary.files) && summary.accumulated == old(summary.accumulated) + fileList
    {
      var i := 0;
      while i < |fileList|
        invariant 0 <= i <= |fileList|
        invariant summary == AccruedAll(old(summary), fileList[..i])
        invariant summary.files == old(summary.files) && summary.accumulated == old(summary.accumulated) + fileList[..i]
      {
        assert fileList[..i + 1] == fileList[..i] + [fileList[i]];
        assert fileList[..i + 1][..i] == fileList[..i];
        summary := Accrued(summary, fileList[i]);
        i := i + 1;
      }
      assert fileList[..|fileList|] == fileList;
    }

    /** The second half of `lookup_files`: create the queue with capacity
        `ceil(len(file_list) / chunk_size)`, queue the chunks and start
        `num_threads` workers. A zero chunk size raises at the division. */
    method StartQueue() returns (r: Result<()>)
      requires !queueCreated && queue == [] && built == [] && workers == 0
      modifies this`queueCreated, this`queueCapacity, this`queue, this`built, this`workers
      ensures queue == built
      ensures chunkSize == 0 ==> r == Raised(ZeroDivisionError) && !queueCreated && queue == [] && workers == 0
      ensures chunkSize < 0 ==> r == Ok(()) && queueCreated && queueCapacity <= 0 && queue == [] &&
                                workers == (if numThreads > 0 then numThreads else 0)
      ensures chunkSize > 0 ==>
                var cs := Chunks(fileList, chunkSize as nat);
                queueCreated && queueCapacity == CeilDiv(|fileList|, chunkSize as nat) &&
                |queue| <= |cs| && (forall j :: 0 <= j < |queue| ==> ProjectChunk(cs[j]) == Ok(queue[j])) &&
                (r.Ok? <==> |queue| == |cs|) &&
                (r.Ok? ==> workers == (if numThreads > 0 then numThreads else 0) &&
                           ProjectChunk(fileList) == Ok(Flatten(queue))) &&
                (r.Raised? ==> ProjectChunk(cs[|queue|]).Raised? && r == Raised(ProjectChunk(cs[|queue|]).exc) &&
                               workers == 0)
    {
      if chunkSize == 0 {
        return Raised(ZeroDivisionError);
      }
      queueCreated := true;
      if chunkSize < 0 {
        // ceil(L / c) for a negative c is -(L // -c): at most 0, an unbounded
        // queue; and range(0, L, c) is empty, so nothing is queued.
        queueCapacity := -(|fileList| / -chunkSize);
        workers := if numThreads > 0 then numThreads else 0;
        return Ok(());
      }
      r := StartBounded();
    }

    /** `StartQueue` for a positive chunk size: a queue of capacity
        `ceil(L / chunk_size)` filled with the chunk projections; the
        workers start only when every chunk was queued. */
    method StartBounded() returns (r: Result<()>)
      requires chunkSize > 0 && queue == [] && built == [] && workers == 0
      modifies this`queueCapacity, this`queue, this`built, this`workers
      ensures queue == built
      ensures var cs := Chunks(fileList, chunkSize as nat);
              queueCapacity == CeilDiv(|fileList|, chunkSize as nat) &&
              |queue| <= |cs| && (forall j :: 0 <= j < |queue| ==> ProjectChunk(cs[j]) == Ok(queue[j])) &&
              (r.Ok? <==> |queue| == |cs|) &&
              (r.Ok? ==> workers == (if numThreads > 0 then numThreads else 0) &&
                         ProjectChunk(fileList) == Ok(Flatten(queue))) &&
              (r.Raised? ==> ProjectChunk(cs[|queue|]).Raised? && r == Raised(ProjectChunk(cs[|queue|]).exc) &&
                             workers == 0)
    {
      queueCapacity := CeilDiv(|fileList|, chunkSize);
      r := FillQueue();
      if r.Ok? {
        workers := if numThreads > 0 then numThreads else 0;
      }
    }

    /** `lookup_files`: enumerate the dataset, report a fatal status when it
        is missing or empty, otherwise queue its chunks and start the
        workers. */
    method LookupFiles(listing: Listing) returns (r: Result<()>)
      requires Fresh()
      modifies this`fileList, this`summary, this`queueCreated, this`queueCapacity, this`queue,
               this`built, this`workers, this`events, servicex
      ensures Valid() && taken == [] && !sampleSubmitted && summary.files == 0 && queue == built
      ensures listing.Failed? ==> r == Raised(listing.exc) && Fresh()
      ensures !listing.Failed? && !IsTruthy(listing) ==>
                fileList == [] && !queueCreated && workers == 0 &&
                events == [Called(StatusUpdate("DID Not found " + did, "fatal"), r.Ok?)]
      ensures IsTruthy(listing) && listing.items == [] ==>
                fileList == [] && !queueCreated && workers == 0 &&
                events == [Called(StatusUpdate("DID Finder found zero files for dataset " + did, "fatal"), r.Ok?)]
      ensures IsTruthy(listing) && listing.items != [] ==>
                fileList == listing.items && summary.accumulated == listing.items && events == [] &&
                (chunkSize == 0 ==> r == Raised(ZeroDivisionError) && !queueCreated && workers == 0) &&
                (chunkSize < 0 ==> r == Ok(()) && queueCreated && queueCapacity <= 0 && queue == [] &&
                                   workers == (if numThreads > 0 then numThreads else 0))
      ensures IsTruthy(listing) && listing.items != [] && chunkSize > 0 ==>
                var cs := Chunks(fileList, chunkSize as nat);
                queueCreated && queueCapacity == CeilDiv(|fileList|, chunkSize as nat) &&
                |queue| <= |cs| && (forall j :: 0 <= j < |queue| ==> ProjectChunk(cs[j]) == Ok(queue[j])) &&
                (r.Ok? <==> |queue| == |cs|) &&
                (r.Ok? ==> workers == (if numThreads > 0 then numThreads else 0) &&
                           ProjectChunk(fileList) == Ok(Flatten(queue))) &&
                (r.Raised? ==> ProjectChunk(cs[|queue|]).Raised? && r == Raised(ProjectChunk(cs[|queue|]).exc) &&
                               workers == 0)
    {
      if listing.Failed? {
        return Raised(listing.exc);
      }
      if !IsTruthy(listing) || listing.items == [] {
        r := ReportNoFiles(listing);
        return;
      }
      fileList := listing.items;
      r := LoadFileList();
    }

    /** The two early returns of `lookup_files`: a falsy listing means the
        DID was not found, an empty one that it holds no files; either way
        one fatal status update is sent and nothing is queued. */
    method ReportNoFiles(listing: Listing) returns (r: Result<()>)
      requires Fresh() && !listing.Failed? && (!IsTruthy(listing) || listing.items == [])
      modifies this`events, servicex
      ensures Valid() && fileList == [] && summary == old(summary)
      ensures queue == [] && built == [] && taken == [] && !queueCreated && workers == 0 && !sampleSubmitted
      ensures !IsTruthy(listing) ==>
                events == [Called(StatusUpdate("DID Not found " + did, "fatal"), r.Ok?)]
      ensures IsTruthy(listing) ==>
                events == [Called(StatusUpdate("DID Finder found zero files for dataset " + did, "fatal"), r.Ok?)]
    {
      if !IsTruthy(listing) {
        r := ReportFatal("DID Not found " + did);
      } else {
        r := ReportFatal("DID Finder found zero files for dataset " + did);
      }
    }

    /** The rest of `lookup_files` once the listing is non-empty: every file
        is accumulated into the summary, then the queue is built and the
        workers are started. */
    method LoadFileList() returns (r: Result<()>)
      requires summary.files == 0 && summary.accumulated == [] && fileList != [] && !queueCreated && queue == [] &&
               !sampleSubmitted && workers == 0 && events == [] && built == [] && taken == []
      modifies this`summary, this`queueCreated, this`queueCapacity, this`queue,
               this`built, this`workers
      ensures Valid() && taken == [] && !sampleSubmitted && summary.files == 0 && queue == built
      ensures fileList == old(fileList) && summary.accumulated == fileList && events == []
      ensures chunkSize == 0 ==> r == Raised(ZeroDivisionError) && !queueCreated && workers == 0
      ensures chunkSize < 0 ==> r == Ok(()) && queueCreated && queueCapacity <= 0 && queue == [] &&
                                workers == (if numThreads > 0 then numThreads else 0)
      ensures chunkSize > 0 ==>
                var cs := Chunks(fileList, chunkSize as nat);
                queueCreated && queueCapacity == CeilDiv(|fileList|, chunkSize as nat) &&
                |queue| <= |cs| && (forall j :: 0 <= j < |queue| ==> ProjectChunk(cs[j]) == Ok(queue[j])) &&
                (r.Ok? <==> |queue| == |cs|) &&
                (r.Ok? ==> workers == (if numThreads > 0 then numThreads else 0) &&
                           ProjectChunk(fileList) == Ok(Flatten(queue))) &&
                (r.Raised? ==> ProjectChunk(cs[|queue|]).Raised? && r == Raised(ProjectChunk(cs[|queue|]).exc) &&
                               workers == 0)
    {
      EmptyLog();
      Accumulate();
      r := StartQueue();
    }

    /** The whole request: `lookup_files`, then each started worker runs
        `replica_lookup` (one after the other). No chunk is dropped exactly
        when every queued chunk succeeds and every reporting call returns;
        then every file the replicas yield is counted, and when they yield
        one record per enumerated file the completion summary is sent
        exactly once. */
    method Run(listing: Listing) returns (r: Result<()>, ghost reached: seq<nat>)
      requires Fresh()
      modifies this, servicex
      ensures Valid()
      ensures Completions(events) <= 1 && Trues(PreflightResults(events)) == (if sampleSubmitted then 1 else 0)
      ensures r.Ok? && queueCreated && workers > 0 ==>
                queue == [] && taken == built &&
                (Failures(events) == 0 <==> AllSucceed(built) && Unreturned(events) == 0) &&
                (Failures(events) == 0 ==> summary.files == TotalYield(built) && FileAdds(events) == AllFiles(built))
      ensures |reached| == |taken| && FileAdds(events) == Reported(taken, reached)
      ensures r.Ok? && queueCreated && workers > 0 && Failures(events) == 0 && built != [] ==>
                sampleSubmitted && AllFiles(built) != [] && Called(Preflight(Some(AllFiles(built)[0])), true) in events
      ensures queueCreated ==> Notices(events) <= [DoneNotice(), CompleteNotice()]
      ensures r.Ok? && queueCreated && workers > 0 && Failures(events) == 0 && TotalYield(built) == |fileList| ==>
                summary.files == |fileList| &&
                Completions(events) == (if |fileList| > 0 then 1 else 0)
    {
      r := LookupFiles(listing);
      reached := [];
      if r.Raised? || !queueCreated {
        LogOkAtMostOnce(requestId, |fileList|, summary.files, sampleSubmitted, events);
        return;
      }
      reached := RunWorkers();
      LogOkAtMostOnce(requestId, |fileList|, summary.files, sampleSubmitted, events);
    }

    /** The started workers each run `replica_lookup`, one after the other,
        on the freshly filled queue: the first drains it, the others find
        it empty. */
    method RunWorkers() returns (ghost reached: seq<nat>)
      requires Valid() && queueCreated && taken == [] && events == [] && summary.files == 0
      modifies this`queue, this`taken, this`events, this`summary, this`sampleSubmitted, servicex
      ensures Valid() && built == old(built)
      ensures workers > 0 ==>
                queue == [] && taken == built &&
                (Failures(events) == 0 <==> AllSucceed(built) && Unreturned(events) == 0) &&
                (Failures(events) == 0 ==> summary.files == TotalYield(built) && FileAdds(events) == AllFiles(built))
      ensures |reached| == |taken| && FileAdds(events) == Reported(taken, reached)
      ensures workers > 0 && Failures(events) == 0 && built != [] ==>
                sampleSubmitted && AllFiles(built) != [] && Called(Preflight(Some(AllFiles(built)[0])), true) in events
      ensures OnlyCompletion([], events, DoneNotice(), CompleteNotice())
    {
      reached := [];
      EmptyLog();
      if workers == 0 {
        return;
      }
      reached := FirstWorker();
      ghost var e1, files1, sub1 := events, summary.files, sampleSubmitted;
      var w := 1;
      while w < workers
        modifies this`queue, this`taken, this`events, this`summary, this`sampleSubmitted, servicex
        invariant 1 <= w <= workers
        invariant Valid() && queue == [] && taken == built && built == old(built)
        invariant events == e1 && summary.files == files1 && sampleSubmitted == sub1
      {
        IdleWorker();
        w := w + 1;
      }
    }

    /** The first worker drains the freshly filled queue. */
    method FirstWorker() returns (ghost reached: seq<nat>)
      requires Valid() && queueCreated && taken == [] && events == [] && summary.files == 0
      modifies this`queue, this`taken, this`events, this`summary, this`sampleSubmitted, servicex
      ensures Valid() && built == old(built) && queue == [] && taken == built
      ensures Failures(events) == 0 <==> AllSucceed(built) && Unreturned(events) == 0
      ensures Failures(events) == 0 ==> summary.files == TotalYield(built) && FileAdds(events) == AllFiles(built)
      ensures |reached| == |taken| && FileAdds(events) == Reported(taken, reached)
      ensures Failures(events) == 0 && built != [] ==>
                sampleSubmitted && AllFiles(built) != [] && Called(Preflight(Some(AllFiles(built)[0])), true) in events
      ensures OnlyCompletion([], events, DoneNotice(), CompleteNotice())
    {
      EmptyLog();
      assert !sampleSubmitted;
      PrependEmpty(queue);
      reached := ReplicaLookup();
      PrependEmpty(built);
      PrependEmpty(Reported(built, reached));
      if Failures(events) == 0 {
        PrependEmpty(AllFiles(built));
      }
    }

    /** A later worker finds the queue empty and changes nothing. */
    method IdleWorker()
      requires Valid() && queueCreated && queue == []
      modifies this`queue, this`taken, this`events, this`summary, this`sampleSubmitted, servicex
      ensures Valid() && queue == [] && taken == old(taken)
      ensures events == old(events) && summary.files == old(summary.files) && sampleSubmitted == old(sampleSubmitted)
    {
      ghost var rw := ReplicaLookup();
      assert taken == old(taken) + [];
    }
}
}

=== FILE: rucio_adapter.dfy ===
/** The catalog adapter: splitting a dataset identifier into scope and name,
    ordering replica URLs by priority, and turning a parsed metalink document
    into one file record per file entry. */
module Rucio {
  import opened Common

  // ---------------------------------------------------------------------
  // Splitting strings (Python's `str.split(sep)`)
  // ---------------------------------------------------------------------

  /** Number of occurrences of `c` in `s`. */
  function Occurrences(s: string, c: char): nat
    decreases |s|
  {
    if s == [] then 0 else (if s[0] == c then 1 else 0) + Occurrences(s[1..], c)
  }

  /** `s.split(sep)`: the maximal separator-free pieces of `s`, in order. */
  function Split(s: string, sep: char): (parts: seq<string>)
    ensures |parts| >= 1
    decreases |s|
  {
    if s == [] then [""]
    else
      var rest := Split(s[1..], sep);
      if s[0] == sep then [""] + rest
      else [[s[0]] + rest[0]] + rest[1..]
  }

  /** `sep.join(parts)`, the inverse of `Split`. */
  function Join(parts: seq<string>, sep: char): string
    requires |parts| >= 1
    decreases |parts|
  {
    if |parts| == 1 then parts[0] else parts[0] + [sep] + Join(parts[1..], sep)
  }

  /** `Split` inverts `Join`, gives one part per separator plus one, and
      no part holds the separator. */
  lemma SplitProperties(s: string, sep: char)
    ensures Join(Split(s, sep), sep) == s
    ensures |Split(s, sep)| == Occurrences(s, sep) + 1
    ensures forall i :: 0 <= i < |Split(s, sep)| ==> sep !in Split(s, sep)[i]
  {
    SplitJoin(s, sep);
    SplitParts(s, sep);
  }

  /** Joining the parts with the separator gives the string back. */
  lemma {:induction false} SplitJoin(s: string, sep: char)
    ensures Join(Split(s, sep), sep) == s
    decreases |s|
  {
    if s != [] {
      SplitJoin(s[1..], sep);
      var rest := Split(s[1..], sep);
      if s[0] == sep {
        assert Split(s, sep) == [""] + rest;
        assert ([""] + rest)[1..] == rest;
        assert Join(Split(s, sep), sep) == "" + [sep] + Join(rest, sep);
        assert s == [s[0]] + s[1..];
      } else {
        var parts := [[s[0]] + rest[0]] + rest[1..];
        assert Split(s, sep) == parts;
        assert parts[1..] == rest[1..];
        if |rest| == 1 {
          assert Join(parts, sep) == [s[0]] + rest[0];
        } else {
          assert Join(rest, sep) == rest[0] + [sep] + Join(rest[1..], sep);
          assert Join(parts, sep) == [s[0]] + rest[0] + [sep] + Join(rest[1..], sep);
        }
        assert s == [s[0]] + s[1..];
      }
    }
  }

  /** There is one part more than there are separators, and no part
      holds the separator. */
  lemma {:induction false} SplitParts(s: string, sep: char)
    ensures |Split(s, sep)| == Occurrences(s, sep) + 1
    ensures forall i :: 0 <= i < |Split(s, sep)| ==> sep !in Split(s, sep)[i]
    decreases |s|
  {
    if s != [] {
      SplitParts(s[1..], sep);
      var rest := Split(s[1..], sep);
      if s[0] == sep {
        assert Split(s, sep) == [""] + rest;
        assert forall i :: 1 <= i < |[""] + rest| ==> ([""] + rest)[i] == rest[i - 1];
      } else {
        var parts := [[s[0]] + rest[0]] + rest[1..];
        assert Split(s, sep) == parts;
        forall i | 0 <= i < |parts| ensures sep !in parts[i] {
          if i == 0 {
            assert sep !in rest[0];
          } else {
            assert parts[i] == rest[i];
          }
        }
      }
    }
  }

  /** Splitting a separator-free string gives it back whole. */
  lemma {:induction false} SplitNoSeparator(s: string, sep: char)
    requires sep !in s
    ensures Split(s, sep) == [s]
    decreases |s|
  {
    if s != [] {
      assert sep !in s[1..];
      SplitNoSeparator(s[1..], sep);
      assert s == [s[0]] + s[1..];
    }
  }

  /** Splitting `a + sep + b` with a separator-free `a` yields `a` first. */
  lemma {:induction false} SplitAfterPiece(a: string, b: string, sep: char)
    requires sep !in a
    ensures Split(a + [sep] + b, sep) == [a] + Split(b, sep)
    decreases |a|
  {
    var s := a + [sep] + b;
    if a == [] {
      assert s == [sep] + b;
      assert s[1..] == b;
    } else {
      assert s[1..] == a[1..] + [sep] + b;
      assert sep !in a[1..];
      SplitAfterPiece(a[1..], b, sep);
      assert a == [a[0]] + a[1..];
    }
  }

  // ---------------------------------------------------------------------
  // parse_did
  // ---------------------------------------------------------------------

  /** A dataset identifier split into its scope and name. */
  datatype Did = Did(scope: string, name: string)

  /** `RucioAdapter.parse_did`: `scope:name`, or a bare name with an empty
      scope. Two-target unpacking of `did.split(":")` raises `ValueError`
      when there is more than one colon. */
  function ParseDid(did: string): (r: Result<Did>)
    ensures ':' !in did ==> r == Ok(Did("", did))
    ensures r.Raised? ==> r == Raised(ValueError) && ':' in did
  {
    if ':' in did then
      var parts := Split(did, ':');
      if |parts| == 2 then Ok(Did(parts[0], parts[1])) else Raised(ValueError)
    else
      Ok(Did("", did))
  }

  lemma {:induction false} ParseDidCases(did: string)
    ensures Occurrences(did, ':') == 0 ==> ParseDid(did) == Ok(Did("", did))
    ensures Occurrences(did, ':') == 1 ==>
              ParseDid(did).Ok? &&
              ParseDid(did).value.scope + ":" + ParseDid(did).value.name == did &&
              ':' !in ParseDid(did).value.scope && ':' !in ParseDid(did).value.name
    ensures Occurrences(did, ':') >= 2 ==> ParseDid(did) == Raised(ValueError)
  {
    SplitProperties(did, ':');
    var parts := Split(did, ':');
    if ':' !in did {
      SplitNoSeparator(did, ':');
    } else if |parts| == 2 {
      assert Join(parts, ':') == parts[0] + [':'] + parts[1];
      assert 1 < |parts|;
      assert ':' !in parts[0] && ':' !in parts[1];
    }
  }

  /** Round trip: a scope and a name free of colons are recovered from
      `scope:name`. */
  lemma {:induction false} ParseDidScoped(scope: string, name: string)
    requires ':' !in scope && ':' !in name
    ensures ParseDid(scope + ":" + name) == Ok(Did(scope, name))
  {
    var did := scope + ":" + name;
    assert did == scope + [':'] + name;
    SplitAfterPiece(scope, name, ':');
    SplitNoSeparator(name, ':');
    assert did[|scope|] == ':';
  }

  // ---------------------------------------------------------------------
  // int(s, 10)
  // ---------------------------------------------------------------------

  predicate IsDigits(s: string)
  {
    |s| > 0 && forall i :: 0 <= i < |s| ==> '0' <= s[i] <= '9'
  }

  function DigitsValue(s: string): nat
    requires forall i :: 0 <= i < |s| ==> '0' <= s[i] <= '9'
    decreases |s|
  {
    if s == [] then 0
    else DigitsValue(s[..|s| - 1]) * 10 + ((s[|s| - 1] as int) - ('0' as int))
  }

  /** `int(s, 10)` for an optional sign followed by decimal digits; any
      other text raises `ValueError`, modelled as `None`. */
  function ParseInt(s: string): (r: Option<int>)
    ensures s == [] ==> r.None?
    ensures r.Some? && r.value < 0 ==> s[0] == '-'
  {
    if |s| > 0 && (s[0] == '+' || s[0] == '-') then
      if IsDigits(s[1..]) then
        Some(if s[0] == '-' then -(DigitsValue(s[1..]) as int) else DigitsValue(s[1..]))
      else None
    else if IsDigits(s) then Some(DigitsValue(s))
    else None
  }

  /** Decimal text of a natural number: a reference definition to check
      `ParseInt` against. */
  function ShowNat(n: nat): (s: string)
    ensures IsDigits(s)
    decreases n
  {
    var d := [(('0' as int) + n % 10) as char];
    if n < 10 then d else ShowNat(n / 10) + d
  }

  function ShowInt(i: int): string
  {
    if i < 0 then "-" + ShowNat(-i) else ShowNat(i)
  }

  lemma {:induction false} DigitsValueShowNat(n: nat)
    ensures DigitsValue(ShowNat(n)) == n
    decreases n
  {
    var s := ShowNat(n);
    if n >= 10 {
      DigitsValueShowNat(n / 10);
      assert s[..|s| - 1] == ShowNat(n / 10);
    }
  }

  /** `int(str(i), 10) == i`. */
  lemma {:induction false} ParseIntShowInt(i: int)
    ensures ParseInt(ShowInt(i)) == Some(i)
  {
    if i < 0 {
      DigitsValueShowNat(-i);
      assert ShowInt(i)[1..] == ShowNat(-i);
    } else {
      DigitsValueShowNat(i);
      assert ShowNat(i)[0] != '-' && ShowNat(i)[0] != '+';
    }
  }

  // ---------------------------------------------------------------------
  // get_paths
  // ---------------------------------------------------------------------

  /** One `<url>` element of a metalink file entry: its `@priority`
      attribute and its `#text`. */
  datatype Url = Url(priority: string, text: string)

  /** The slot that `paths[int(priority, 10) - 1] = ...` writes in a list of
      length `n`, or the exception that assignment raises. */
  function Slot(n: nat, u: Url): (r: Result<nat>)
    ensures r.Ok? ==> r.value < n
  {
    match ParseInt(u.priority)
    case None => Raised(ValueError)
    case Some(p) =>
      match PyIndex(n, p - 1)
      case None => Raised(IndexError)
      case Some(k) => Ok(k)
  }

  /** The slots after writing each URL's text at its slot, left to right,
      stopping at the first URL whose slot raises. */
  function Place(slots: seq<Option<string>>, urls: seq<Url>): (r: Result<seq<Option<string>>>)
    ensures r.Ok? ==> |r.value| == |slots|
    decreases |urls|
  {
    if urls == [] then Ok(slots)
    else
      match Slot(|slots|, urls[0])
      case Raised(e) => Raised(e)
      case Ok(k) => Place(slots[k := Some(urls[0].text)], urls[1..])
  }

  function Nones(n: nat): (s: seq<Option<string>>)
    ensures |s| == n && forall k :: 0 <= k < n ==> s[k] == None
  {
    seq(n, _ => None)
  }

  /** `RucioAdapter.get_paths`: preallocate `len(urls)` empty slots and write
      each URL's text at slot `priority - 1`. */
  method GetPaths(urls: seq<Url>) returns (r: Result<seq<Option<string>>>)
    ensures r == Place(Nones(|urls|), urls)
  {
    var paths := new Option<string>[|urls|](_ => None);
    assert paths[..] == Nones(|urls|);
    var i := 0;
    while i < |urls|
      invariant 0 <= i <= |urls| && paths.Length == |urls|
      invariant Place(paths[..], urls[i..]) == Place(Nones(|urls|), urls)
    {
      assert urls[i..][1..] == urls[i + 1..];
      var k := Slot(paths.Length, urls[i]);
      if k.Raised? {
        return Raised(k.exc);
      }
      paths[k.value] := Some(urls[i].text);
      i := i + 1;
    }
    return Ok(paths[..]);
  }

  /** `Place` raises exactly when some URL's slot raises. */
  lemma {:induction false} PlaceRaises(slots: seq<Option<string>>, urls: seq<Url>)
    ensures Place(slots, urls).Raised? <==> exists j :: 0 <= j < |urls| && Slot(|slots|, urls[j]).Raised?
    decreases |urls|
  {
    if urls != [] {
      match Slot(|slots|, urls[0])
      case Raised(e) =>
      case Ok(k) =>
        var next := slots[k := Some(urls[0].text)];
        PlaceRaises(next, urls[1..]);
        if exists j :: 0 <= j < |urls| && Slot(|slots|, urls[j]).Raised? {
          var j :| 0 <= j < |urls| && Slot(|slots|, urls[j]).Raised?;
          assert urls[1..][j - 1] == urls[j];
        }
        forall j | 0 <= j < |urls[1..]| && Slot(|next|, urls[1..][j]).Raised?
          ensures Slot(|slots|, urls[j + 1]).Raised?
        {
        }
    }
  }

  /** A slot that no URL targets keeps its old content. */
  lemma {:induction false} PlaceUntouched(slots: seq<Option<string>>, urls: seq<Url>, k: nat)
    requires k < |slots| && Place(slots, urls).Ok?
    requires forall j :: 0 <= j < |urls| ==> Slot(|slots|, urls[j]) != Ok(k)
    ensures Place(slots, urls).value[k] == slots[k]
    decreases |urls|
  {
    if urls != [] {
      var m := Slot(|slots|, urls[0]).value;
      var next := slots[m := Some(urls[0].text)];
      forall j | 0 <= j < |urls[1..]| ensures Slot(|next|, urls[1..][j]) != Ok(k) {
        assert urls[1..][j] == urls[j + 1];
      }
      PlaceUntouched(next, urls[1..], k);
    }
  }

  /** A slot holds the text of the last URL that targets it. */
  lemma {:induction false} PlaceLastWriter(slots: seq<Option<string>>, urls: seq<Url>, j: nat, k: nat)
    requires j < |urls| && Place(slots, urls).Ok?
    requires Slot(|slots|, urls[j]) == Ok(k)
    requires forall j' :: j < j' < |urls| ==> Slot(|slots|, urls[j']) != Ok(k)
    ensures Place(slots, urls).value[k] == Some(urls[j].text)
    decreases |urls|
  {
    var m := Slot(|slots|, urls[0]).value;
    var next := slots[m := Some(urls[0].text)];
    if j == 0 {
      forall j' | 0 <= j' < |urls[1..]| ensures Slot(|next|, urls[1..][j']) != Ok(k) {
        assert urls[1..][j'] == urls[j' + 1];
      }
      PlaceUntouched(next, urls[1..], k);
    } else {
      assert urls[1..][j - 1] == urls[j];
      forall j' | j - 1 < j' < |urls[1..]| ensures Slot(|next|, urls[1..][j']) != Ok(k) {
        assert urls[1..][j'] == urls[j' + 1];
      }
      PlaceLastWriter(next, urls[1..], j - 1, k);
    }
  }

  /** `ps` lists each of 1..n exactly once, where n is its length. */
  predicate IsPermutationOfOneToN(ps: seq<int>)
  {
    (forall j :: 0 <= j < |ps| ==> 1 <= ps[j] <= |ps|) &&
    (forall j, j' :: 0 <= j < j' < |ps| ==> ps[j] != ps[j']) &&
    (forall p :: 1 <= p <= |ps| ==> p in ps)
  }

  /** `ps` are the parsed `@priority` attributes of `urls`. */
  predicate ArePriorities(urls: seq<Url>, ps: seq<int>)
  {
    |ps| == |urls| && forall j :: 0 <= j < |urls| ==> ParseInt(urls[j].priority) == Some(ps[j])
  }

  /** With priorities forming a permutation of 1..n, slot `p - 1` holds the
      text of the URL of priority `p`, and no slot is left empty. */
  lemma {:induction false} GetPathsPermutation(urls: seq<Url>, ps: seq<int>)
    requires ArePriorities(urls, ps) && IsPermutationOfOneToN(ps)
    ensures Place(Nones(|urls|), urls).Ok?
    ensures forall j :: 0 <= j < |urls| ==> Place(Nones(|urls|), urls).value[ps[j] - 1] == Some(urls[j].text)
    ensures forall k :: 0 <= k < |urls| ==> Place(Nones(|urls|), urls).value[k].Some?
  {
    var n := |urls|;
    PermutationSlots(urls, ps);
    PlaceRaises(Nones(n), urls);
    var r := Place(Nones(n), urls).value;
    forall j | 0 <= j < n ensures r[ps[j] - 1] == Some(urls[j].text) {
      PermutationLastWriter(urls, ps, j);
    }
    forall k | 0 <= k < n ensures r[k].Some? {
      assert k + 1 in ps;
      var j :| 0 <= j < n && ps[j] == k + 1;
      PermutationLastWriter(urls, ps, j);
    }
  }

  lemma {:induction false} PermutationSlots(urls: seq<Url>, ps: seq<int>)
    requires ArePriorities(urls, ps) && IsPermutationOfOneToN(ps)
    ensures forall j :: 0 <= j < |urls| ==> Slot(|urls|, urls[j]) == Ok(ps[j] - 1)
  {
    forall j | 0 <= j < |urls| ensures Slot(|urls|, urls[j]) == Ok(ps[j] - 1) {
      assert ParseInt(urls[j].priority) == Some(ps[j]);
      assert PyIndex(|urls|, ps[j] - 1) == Some(ps[j] - 1);
    }
  }

  lemma {:induction false} PermutationLastWriter(urls: seq<Url>, ps: seq<int>, j: nat)
    requires ArePriorities(urls, ps) && IsPermutationOfOneToN(ps) && j < |urls|
    requires Place(Nones(|urls|), urls).Ok?
    ensures Place(Nones(|urls|), urls).value[ps[j] - 1] == Some(urls[j].text)
  {
    var n := |urls|;
    PermutationSlots(urls, ps);
    var k := ps[j] - 1;
    forall j' | j < j' < n ensures Slot(n, urls[j']) != Ok(k) {
      assert ps[j] != ps[j'];
    }
    PlaceLastWriter(Nones(n), urls, j, k);
  }

  /** `Place` raises what the first raising slot raises. */
  lemma {:induction false} PlaceFirstRaise(slots: seq<Option<string>>, urls: seq<Url>, j: nat)
    requires j < |urls| && Slot(|slots|, urls[j]).Raised?
    requires forall j' :: 0 <= j' < j ==> Slot(|slots|, urls[j']).Ok?
    ensures Place(slots, urls) == Raised(Slot(|slots|, urls[j]).exc)
    decreases j
  {
    if j > 0 {
      var next := slots[Slot(|slots|, urls[0]).value := Some(urls[0].text)];
      assert urls[1..][j - 1] == urls[j];
      forall j' | 0 <= j' < j - 1 ensures Slot(|next|, urls[1..][j']).Ok? {
        assert urls[1..][j'] == urls[j' + 1];
      }
      PlaceFirstRaise(next, urls[1..], j - 1);
    }
  }

  /** A priority above the number of URLs makes `get_paths` raise, and it
      raises `IndexError` when every earlier URL's slot was fine. */
  lemma {:induction false} GetPathsPriorityTooLarge(urls: seq<Url>, j: nat)
    requires j < |urls|
    requires ParseInt(urls[j].priority).Some? && ParseInt(urls[j].priority).value > |urls|
    ensures Place(Nones(|urls|), urls).Raised?
    ensures (forall j' :: 0 <= j' < j ==> Slot(|urls|, urls[j']).Ok?) ==>
              Place(Nones(|urls|), urls) == Raised(IndexError)
  {
    assert Slot(|urls|, urls[j]) == Raised(IndexError);
    PlaceRaises(Nones(|urls|), urls);
    if forall j' :: 0 <= j' < j ==> Slot(|urls|, urls[j']).Ok? {
      PlaceFirstRaise(Nones(|urls|), urls, j);
    }
  }

  /** Priority 0 writes index -1: the last slot holds the text of a URL
      with priority 0 that no later URL overwrites. */
  lemma {:induction false} GetPathsPriorityZero(urls: seq<Url>, j: nat)
    requires j < |urls| && ParseInt(urls[j].priority) == Some(0)
    requires forall j' :: j < j' < |urls| ==> Slot(|urls|, urls[j']) != Ok(|urls| - 1)
    requires Place(Nones(|urls|), urls).Ok?
    ensures Place(Nones(|urls|), urls).value[|urls| - 1] == Some(urls[j].text)
  {
    PlaceLastWriter(Nones(|urls|), urls, j, |urls| - 1);
  }

  // ---------------------------------------------------------------------
  // list_files_for_did
  // ---------------------------------------------------------------------

  /** One `<file>` entry of the parsed metalink document: the text of its
      `hash` element, its `size` text and its `url` elements. */
  datatype MetalinkFile = MetalinkFile(hash: string, size: string, urls: seq<Url>)

  /** What the replica client gives back for one DID: the parsed metalink
      files, `DataIdentifierNotFound`, or any other exception it raises. */
  datatype CatalogReply = DidNotFound | Metalink(files: seq<MetalinkFile>) | CatalogFailed(exc: Exc)

  /** The record `list_files_for_did` builds for one file entry. */
  datatype FileRecord = FileRecord(adler32: string, fileSize: int, fileEvents: int, filePath: seq<Option<string>>)

  /** The record for one file entry, in the order the dictionary literal
      evaluates its values: the size conversion raises before `get_paths`. */
  function ToRecord(f: MetalinkFile): (r: Result<FileRecord>)
    ensures r.Ok? <==> ParseInt(f.size).Some? && Place(Nones(|f.urls|), f.urls).Ok?
    ensures r.Ok? ==> r.value == FileRecord(f.hash, ParseInt(f.size).value, 0, Place(Nones(|f.urls|), f.urls).value)
    ensures ParseInt(f.size).None? ==> r == Raised(ValueError)
  {
    match ParseInt(f.size)
    case None => Raised(ValueError)
    case Some(size) =>
      match Place(Nones(|f.urls|), f.urls)
      case Raised(e) => Raised(e)
      case Ok(paths) => Ok(FileRecord(f.hash, size, 0, paths))
  }

  /** The records of the file entries, in order, or the first exception. */
  function Records(files: seq<MetalinkFile>): (r: Result<seq<FileRecord>>)
    ensures r.Ok? ==> |r.value| == |files|
    decreases |files|
  {
    if files == [] then Ok([])
    else
      match Records(files[..|files| - 1])
      case Raised(e) => Raised(e)
      case Ok(rs) =>
        match ToRecord(files[|files| - 1])
        case Raised(e) => Raised(e)
        case Ok(rec) => Ok(rs + [rec])
  }

  /** One record per file entry, in order, carrying that entry's data; the
      mapping fails exactly when one entry's record fails. */
  lemma {:induction false} RecordsSpec(files: seq<MetalinkFile>)
    ensures Records(files).Ok? <==> forall i :: 0 <= i < |files| ==> ToRecord(files[i]).Ok?
    ensures Records(files).Ok? ==>
              |Records(files).value| == |files| &&
              forall i :: 0 <= i < |files| ==> Records(files).value[i] == ToRecord(files[i]).value
    decreases |files|
  {
    if files != [] {
      var init := files[..|files| - 1];
      RecordsSpec(init);
      forall i | 0 <= i < |init| ensures init[i] == files[i] { }
    }
  }

  /** `RucioAdapter.list_files_for_did`. The replica client is the function
      `listReplicas`, applied to the parsed DID; `None` is the result when
      the client reports `DataIdentifierNotFound`; the `try` catches
      nothing else. */
  method ListFilesForDid(did: string, listReplicas: Did -> CatalogReply) returns (r: Result<Option<seq<FileRecord>>>)
    ensures ParseDid(did).Raised? ==> r == Raised(ParseDid(did).exc)
    ensures ParseDid(did).Ok? && listReplicas(ParseDid(did).value).DidNotFound? ==> r == Ok(None)
    ensures ParseDid(did).Ok? && listReplicas(ParseDid(did).value).CatalogFailed? ==>
              r == Raised(listReplicas(ParseDid(did).value).exc)
    ensures ParseDid(did).Ok? && listReplicas(ParseDid(did).value).Metalink? ==>
              var files := listReplicas(ParseDid(did).value).files;
              match Records(files)
              case Ok(rs) => r == Ok(Some(rs))
              case Raised(e) => r == Raised(e)
  {
    var parsed := ParseDid(did);
    if parsed.Raised? {
      return Raised(parsed.exc);
    }
    var reply := listReplicas(parsed.value);
    if reply.DidNotFound? {
      return Ok(None);
    }
    if reply.CatalogFailed? {
      return Raised(reply.exc);
    }
    var files := reply.files;
    var gFiles: seq<FileRecord> := [];
    var i := 0;
    while i < |files|
      invariant 0 <= i <= |files|
      invariant Records(files[..i]) == Ok(gFiles)
    {
      assert files[..i + 1][..i] == files[..i];
      var size := ParseInt(files[i].size);
      if size.None? {
        assert Records(files[..i + 1]) == Raised(ValueError);
        RecordsRaisedExtends(files, i + 1);
        return Raised(ValueError);
      }
      var paths := GetPaths(files[i].urls);
      if paths.Raised? {
        assert Records(files[..i + 1]) == Raised(paths.exc);
        RecordsRaisedExtends(files, i + 1);
        return Raised(paths.exc);
      }
      gFiles := gFiles + [FileRecord(files[i].hash, size.value, 0, paths.value)];
      i := i + 1;
    }
    assert files[..|files|] == files;
    return Ok(Some(gFiles));
  }

  /** Once a prefix of the entries fails, every longer prefix fails the same way. */
  lemma {:induction false} RecordsRaisedExtends(files: seq<MetalinkFile>, i: nat)
    requires i <= |files| && Records(files[..i]).Raised?
    ensures Records(files) == Records(files[..i])
    decreases |files| - i
  {
    if i < |files| {
      assert files[..i + 1][..i] == files[..i];
      RecordsRaisedExtends(files, i + 1);
    } else {
      assert files[..i] == files;
    }
  }
}

=== FILE: servicex_adapter.dfy ===
/** The reporting client: four operations that send one HTTP request each to
    the ServiceX endpoint. A request that meets a connection error is sent
    again, for at most `MaxRetries` requests in all (so at most two retries);
    after that the operation gives up silently. */
module ServiceX {
  import opened Common

  const MaxRetries: nat := 3

  /** The `source` field of every status update. */
  const Source: string := "DID Finder"

  /** What one HTTP request does: succeed, fail with
      `requests.exceptions.ConnectionError`, or raise anything else. */
  datatype TransportOutcome = Delivered | ConnErr | OtherErr(exc: Exc)

  datatype Verb = Post | Put

  datatype Request = Request(verb: Verb, url: string, body: Dict)

  /** How an operation ends: it returned after a successful request, it
      returned after exhausting its retries, or it raised. */
  datatype Delivery = Sent | GaveUp | Raise(exc: Exc)

  /** The number of requests the retry loop issues and how it ends. */
  datatype RetryRun = RetryRun(calls: nat, delivery: Delivery)

  /** The retry loop from the state where `attempts` connection errors have
      been seen; `o(i)` is the outcome of the loop's `i`-th request. */
  function RetryFrom(o: nat -> TransportOutcome, attempts: nat): (r: RetryRun)
    requires attempts < MaxRetries
    ensures attempts < r.calls <= MaxRetries
    ensures forall i :: attempts <= i < r.calls - 1 ==> o(i) == ConnErr
    ensures r.delivery == Sent ==> o(r.calls - 1) == Delivered
    ensures r.delivery == GaveUp ==> r.calls == MaxRetries && o(r.calls - 1) == ConnErr
    ensures r.delivery.Raise? ==> o(r.calls - 1) == OtherErr(r.delivery.exc)
    decreases MaxRetries - attempts
  {
    match o(attempts)
    case Delivered => RetryRun(attempts + 1, Sent)
    case OtherErr(e) => RetryRun(attempts + 1, Raise(e))
    case ConnErr =>
      if attempts + 1 == MaxRetries then RetryRun(MaxRetries, GaveUp)
      else RetryFrom(o, attempts + 1)
  }

  /** The whole retry loop: at most `MaxRetries` requests; only connection
      errors lead to another request; a first-try success is one request;
      three connection errors end in a silent give-up. */
  function Retry(o: nat -> TransportOutcome): (r: RetryRun)
    ensures 1 <= r.calls <= MaxRetries
    ensures forall i :: 0 <= i < r.calls - 1 ==> o(i) == ConnErr
    ensures o(0) == Delivered ==> r == RetryRun(1, Sent)
    ensures r.delivery == Sent <==> o(r.calls - 1) == Delivered
    ensures r.delivery == GaveUp <==> (forall i :: 0 <= i < MaxRetries ==> o(i) == ConnErr)
    ensures r.delivery == GaveUp ==> r.calls == MaxRetries
    ensures r.delivery.Raise? <==> o(r.calls - 1).OtherErr?
    ensures r.delivery.Raise? ==> r.delivery == Raise(o(r.calls - 1).exc)
  {
    var r := RetryFrom(o, 0);
    assert r.delivery != GaveUp ==> o(r.calls - 1) != ConnErr;
    r
  }

  /** The outcomes seen by a loop whose first request is the transport's
      `start`-th. */
  function From(transport: nat -> TransportOutcome, start: nat): nat -> TransportOutcome
  {
    (i: nat) => transport(start + i)
  }

  /** The keys `put_file_add` reads from its argument, in the order the
      message literal reads them. */
  const FileAddKeys: seq<string> := ["file_path", "adler32", "file_size", "file_events"]

  /** The first of `keys` missing from `d`, which is the key a sequence of
      `d[key]` lookups raises `KeyError` for. */
  function FirstMissing(keys: seq<string>, d: Dict): (r: Option<string>)
    ensures r.None? <==> forall i :: 0 <= i < |keys| ==> keys[i] in d
    ensures r.Some? ==> r.value in keys && r.value !in d
    ensures r.Some? ==> exists i :: 0 <= i < |keys| && keys[i] == r.value &&
                                    forall i' :: 0 <= i' < i ==> keys[i'] in d
    decreases |keys|
  {
    if keys == [] then None
    else if keys[0] !in d then Some(keys[0])
    else
      var r := FirstMissing(keys[1..], d);
      assert forall i :: 0 < i < |keys| ==> keys[i] == keys[1..][i - 1];
      r
  }

  /** The file-add message: the timestamp plus the four fields copied from
      the file record, and nothing else. */
  function FileAddBody(timestamp: string, info: Dict): (m: Dict)
    requires FirstMissing(FileAddKeys, info).None?
    ensures m.Keys == {"timestamp", "file_path", "adler32", "file_size", "file_events"}
    ensures m["timestamp"] == Str(timestamp)
    ensures forall i :: 0 <= i < |FileAddKeys| ==> m[FileAddKeys[i]] == info[FileAddKeys[i]]
  {
    assert FileAddKeys[0] in info && FileAddKeys[1] in info && FileAddKeys[2] in info && FileAddKeys[3] in info;
    map["timestamp" := Str(timestamp),
        "file_path" := info["file_path"],
        "adler32" := info["adler32"],
        "file_size" := info["file_size"],
        "file_events" := info["file_events"]]
  }

  class ServiceXAdapter {
    const endpoint: string
    /** The outcome of the `k`-th HTTP request this adapter issues. */
    const transport: nat -> TransportOutcome
    /** `datetime.now().isoformat()` when the body of the `k`-th request is built. */
    const clock: nat -> string
    /** Every HTTP request issued so far, in order. */
    var sent: seq<Request>

    constructor (endpoint: string, transport: nat -> TransportOutcome, clock: nat -> string)
      ensures this.endpoint == endpoint && this.transport == transport && this.clock == clock
      ensures sent == []
    {
      this.endpoint := endpoint;
      this.transport := transport;
      this.clock := clock;
      sent := [];
    }

    /** The retry loop shared by the four operations: request `k` carries the
        body built with timestamp `clock(k)` and gets outcome `transport(k)`. */
    method Send(verb: Verb, path: string, body: string -> Dict) returns (d: Delivery)
      modifies this
      ensures var run := Retry(From(transport, old(|sent|)));
              d == run.delivery && |sent| == old(|sent|) + run.calls
      ensures sent[..old(|sent|)] == old(sent)
      ensures forall k :: old(|sent|) <= k < |sent| ==> sent[k] == Request(verb, endpoint + path, body(clock(k)))
    {
      ghost var start := |sent|;
      ghost var o := From(transport, start);
      var success := false;
      var attempts := 0;
      while !success && attempts < MaxRetries
        invariant 0 <= attempts <= MaxRetries
        invariant |sent| == start + attempts + (if success then 1 else 0)
        invariant sent[..start] == old(sent)
        invariant forall k :: start <= k < |sent| ==> sent[k] == Request(verb, endpoint + path, body(clock(k)))
        invariant !success && attempts < MaxRetries ==> RetryFrom(o, 0) == RetryFrom(o, attempts)
        invariant !success && attempts == MaxRetries ==> RetryFrom(o, 0) == RetryRun(MaxRetries, GaveUp)
        invariant success ==> RetryFrom(o, 0) == RetryRun(attempts + 1, Sent)
      {
        var k := |sent|;
        var outcome := transport(k);
        assert outcome == o(attempts);
        ghost var prev := sent;
        sent := sent + [Request(verb, endpoint + path, body(clock(k)))];
        forall j | start <= j < |sent|
          ensures sent[j] == Request(verb, endpoint + path, body(clock(j)))
        {
          if j < k {
            assert sent[j] == prev[j];
          }
        }
        assert sent[..start] == prev[..start];
        match outcome
        case Delivered =>
          success := true;
        case ConnErr =>
          assert RetryFrom(o, attempts) ==
                   if attempts + 1 == MaxRetries then RetryRun(MaxRetries, GaveUp) else RetryFrom(o, attempts + 1);
          attempts := attempts + 1;
        case OtherErr(e) =>
          return Raise(e);
      }
      d := if success then Sent else GaveUp;
      assert Retry(o) == RetryFrom(o, 0);
    }

    /** `post_status_update`: POST a status message to `/status`. */
    method PostStatusUpdate(statusMsg: string, severity: string := "info") returns (d: Delivery)
      modifies this
      ensures var run := Retry(From(transport, old(|sent|)));
              d == run.delivery && |sent| == old(|sent|) + run.calls
      ensures sent[..old(|sent|)] == old(sent)
      ensures forall k :: old(|sent|) <= k < |sent| ==>
                sent[k] == Request(Post, endpoint + "/status",
                                   map["timestamp" := Str(clock(k)), "source" := Str(Source),
                                       "severity" := Str(severity), "info" := Str(statusMsg)])
    {
      d := Send(Post, "/status",
                t => map["timestamp" := Str(t), "source" := Str(Source),
                         "severity" := Str(severity), "info" := Str(statusMsg)]);
    }

    /** `put_file_add`: PUT the file-add message to `/files`; a missing key
        of `fileInfo` raises `KeyError` before any request is made. */
    method PutFileAdd(fileInfo: Dict) returns (d: Delivery)
      modifies this
      ensures FirstMissing(FileAddKeys, fileInfo).Some? ==>
                d == Raise(KeyError(FirstMissing(FileAddKeys, fileInfo).value)) && sent == old(sent)
      ensures FirstMissing(FileAddKeys, fileInfo).None? ==>
                var run := Retry(From(transport, old(|sent|)));
                d == run.delivery && |sent| == old(|sent|) + run.calls &&
                sent[..old(|sent|)] == old(sent) &&
                forall k :: old(|sent|) <= k < |sent| ==>
                  sent[k] == Request(Put, endpoint + "/files", FileAddBody(clock(k), fileInfo))
    {
      var missing := FirstMissing(FileAddKeys, fileInfo);
      if missing.Some? {
        return Raise(KeyError(missing.value));
      }
      d := Send(Put, "/files", t => FileAddBody(t, fileInfo));
    }

    /** `post_preflight_check`: POST the sample's path to `/preflight`.
        Subscripting a missing sample (`None`) raises `TypeError`. */
    method PostPreflightCheck(fileEntry: Option<Dict>) returns (d: Delivery)
      modifies this
      ensures fileEntry.None? ==> d == Raise(TypeError) && sent == old(sent)
      ensures fileEntry.Some? && "file_path" !in fileEntry.value ==>
                d == Raise(KeyError("file_path")) && sent == old(sent)
      ensures fileEntry.Some? && "file_path" in fileEntry.value ==>
                var run := Retry(From(transport, old(|sent|)));
                d == run.delivery && |sent| == old(|sent|) + run.calls &&
                sent[..old(|sent|)] == old(sent) &&
                forall k :: old(|sent|) <= k < |sent| ==>
                  sent[k] == Request(Post, endpoint + "/preflight", map["file_path" := fileEntry.value["file_path"]])
    {
      if fileEntry.None? {
        return Raise(TypeError);
      }
      if "file_path" !in fileEntry.value {
        return Raise(KeyError("file_path"));
      }
      var path := fileEntry.value["file_path"];
      d := Send(Post, "/preflight", _ => map["file_path" := path]);
    }

    /** `put_fileset_complete`: PUT the summary unchanged to `/complete`. */
    method PutFilesetComplete(summary: Dict) returns (d: Delivery)
      modifies this
      ensures var run := Retry(From(transport, old(|sent|)));
              d == run.delivery && |sent| == old(|sent|) + run.calls
      ensures sent[..old(|sent|)] == old(sent)
      ensures forall k :: old(|sent|) <= k < |sent| ==> sent[k] == Request(Put, endpoint + "/complete", summary)
    {
      d := Send(Put, "/complete", _ => summary);
    }
  }
}
